=== FILE: README.md ===
# StratoVirt machine core, PulseAudio format decoding and virtio-scsi configuration in Dafny

This project models three pieces of the StratoVirt virtual machine monitor
and proves properties of each.

* **Machine operations** (`MachineOps` in `machine/src/lib.rs`):
  * the VM lifecycle state machine `vm_state_transfer` and the four per-vCPU
    passes it dispatches to (`lifecycle.dfy`);
  * the fixed-order, abort-on-first-error device pipeline `add_devices`,
    together with `add_virtio_vsock` and the trait's default
    `realize_virtio_mmio_device`, `add_pflash_device` and `add_rng_device`
    (`devices.dfy`);
  * the start-up steps `init_vcpu`, `init_memory` and `register_seccomp`
    (`machine_init.dfy`).

  vCPUs, KVM, host memory mappings, address-space listeners, the migration
  manager and the seccomp filter are foreign. Each fallible call into them
  is a given outcome: a `seq<bool>` indexed like the vCPUs or mappings, or a
  `bool`. The lifecycle passes, `init_vcpu`, `init_memory`,
  `add_virtio_vsock` and `register_seccomp` return, as part of their
  result, the ordered log of the foreign calls their properties are about.
  `add_devices` returns the steps it attempted rather than a call log. A machine's device hooks are a record of
  total functions. A hook the machine does not override is `None` and
  behaves as the trait default. `sequential.dfy` defines the shared
  "first failing index" of a sequence of outcomes.
* **Scream PulseAudio back end** (`devices/src/misc/scream/pulseaudio.rs`,
  `pulseaudio.dfy`), which covers:
  * decoding of the packed sample-rate byte and of the sample size;
  * `transfer_channel_map`, which maps a Windows speaker mask to speaker
    positions;
  * the reconfiguration done by `check_fmt_update`;
  * the `send` and `receive` guards and the `init` defaults.

  The PulseAudio library is a parameter. It answers four questions: whether
  a channel map is valid, the map `init_extend` builds, whether a map suits
  a sample spec, and whether a stream opens.
* **virtio-scsi command-line configuration**
  (`machine_manager/src/config/scsi.rs`, `scsi.dfy`), which covers:
  * the controller default and `check`;
  * `parse_scsi_controller`;
  * `parse_scsi_device`, including the take-over of the named drive from
    the machine's drive table.

  A parsed option string is a map from key to an `Arg`. The `Arg` holds the
  value's text and, when the text is a decimal integer, its value.

`wrappers.dfy` holds the `Option` and `Result` datatypes, and `integers.dfy`
the unsigned integer widths `u8`, `u16` and `u32`.

The model keeps two behaviours of the code that a reader might expect to be otherwise:

* `init_memory` is not all-or-nothing. RAM regions inserted before a failing
  insertion stay in the address space. Only the final registration of the
  memory instance is skipped.
* `vm_state_transfer` accepts `Shutdown -> Shutdown`, because `(_, Shutdown)`
  matches every source state. It destroys the vCPUs again.

Three behaviours of the code are stated as lemmas because they are easy to
miss:

* The `scsi-id` range check cannot fire. The value is read as a `u8` and
  compared with 255, so an id of 256 or more is a conversion error, never
  the range error (`ScsiConfig.WideTargetIsConversionError`).
* `receive` does not consult the sample rate. After a switch to an
  unsupported sample size, a stream opened for the previous format is still
  read, while `send` stays silent (`PulseAudio.CaptureIgnoresRate`).
* A read error zeroes the rate. Playback then stays silent until the guest
  switches format (`PulseAudio.ReadErrorStopsPlayback`).

## Model

| member | source | states |
|---|---|---|
| Sequential.FirstFailure | machine/src/lib.rs:486-491 | the index where an in-order pass that stops at the first failure stops: the first failing index, or the length when all succeed |
| Lifecycle.Pass | machine/src/lib.rs:484-500 | a per-vCPU pass calls vCPUs 0, 1, ... in order; on the first failure at `k` it reports `k`, has touched exactly vCPUs 0..k and leaves the state unchanged; only when all succeed does it run the trailing steps and set the new state |
| Lifecycle.VmStart | machine/src/lib.rs:480-501 | starts every vCPU in order, then sets Paused or Running according to `paused` and waits at the barrier; stops at the first failing vCPU with the state unchanged |
| Lifecycle.VmPause | machine/src/lib.rs:509-528 | pauses every vCPU in order; on aarch64 then stops the interrupt controller; sets Paused only when all vCPUs paused |
| Lifecycle.VmResume | machine/src/lib.rs:536-548 | resumes every vCPU in order and sets Running only when all succeeded; otherwise names the first failing vCPU |
| Lifecycle.VmDestroy | machine/src/lib.rs:556-568 | destroys every vCPU in order and sets Shutdown only when all succeeded; otherwise names the first failing vCPU |
| Lifecycle.VmStateTransfer | machine/src/lib.rs:578-624 | a stale current state and a pair outside the transition table fail with no vCPU call and no state change; a legal pair runs the matching pass; success iff the state matched, the pair is legal and every vCPU succeeded; success leaves the requested state, failure the old one; the post-dispatch consistency error never occurs |
| Lifecycle.CreatedNeverReentered | machine/src/lib.rs:594-613 | once the machine has left Created, no sequence of requests brings it back, whatever the vCPUs do |
| Lifecycle.ShutdownIsFinal | machine/src/lib.rs:594-613 | no sequence of requests leaves Shutdown |
| Lifecycle.ShutdownFromAnyState | machine/src/lib.rs:606-609 | from every state a destroy request naming that state succeeds when all vCPUs can be destroyed, destroying each once in order |
| Lifecycle.PauseScenario | machine/src/lib.rs:517-520 | pausing four vCPUs where vCPU 2 fails reports vCPU 2, paused 0 and 1, never reached 3, and stays Running |
| Devices.AddPFlashDevice | machine/src/lib.rs:407-409 | the trait default refuses every flash device with "Pflash device is not supported!"; an override is used as given |
| Devices.AddRngDevice | machine/src/lib.rs:333-335 | the trait default accepts every entropy device |
| Devices.RealizeVirtioMmio | machine/src/lib.rs:298-303 | the trait default fails with "Virtio mmio devices not supported" |
| Devices.AddVirtioVsock | machine/src/lib.rs:279-296 | succeeds iff parsing and realizing succeed; a parse error is returned as is, a realize error is wrapped; the transport and the vsock are registered for migration, in that order, only on success; machines keeping the default transport never get a vsock |
| Devices.AddDevices | machine/src/lib.rs:342-404 | succeeds iff every step of the plan succeeds and then attempted the whole plan; on failure the attempted steps are a prefix of the plan whose earlier steps succeeded and whose last step failed with exactly the returned error; the RTC is always attempted first |
| Devices.PlanOrder | machine/src/lib.rs:342-389 | the steps run in the fixed order RTC, serial, pflash, drives, nets, consoles, balloon, rng, generic devices, starting with the RTC |
| Devices.FailureAt | machine/src/lib.rs:342-404 | when every step before step `k` succeeds and step `k` fails, the pipeline returns that step's error and attempted exactly steps 0..k |
| Devices.StageFailure | machine/src/lib.rs:342-389 | the first failing step within a category aborts the pipeline with that step's labelled error after exactly the earlier categories and the earlier steps of its own category |
| Devices.BlockFailureLabelled | machine/src/lib.rs:361-366 | a failing drive after valid ones fails with the "block" label around the hook's own cause, after attempting only the drives up to it |
| Devices.RngFailureUnlabelled | machine/src/lib.rs:387-389 | an entropy-device failure is returned without a "Failed to add" label |
| Devices.UnsupportedGenericDevice | machine/src/lib.rs:391-401 | a generic device other than "vhost-vsock-device" fails with "Unsupported device" after every earlier entry, including earlier vsock entries, was processed |
| Devices.DefaultPFlashRejected | machine/src/lib.rs:354-359 | on a machine with the default pflash hook, any configured flash device fails the pipeline with the "pflash" label |
| MachineInit.InitVcpu | machine/src/lib.rs:206-248 | creates exactly `nr_cpus` CPUs with ids 0..nr_cpus-1 in order, each on its own descriptor, registered for migration before any realize; realizes only with a boot configuration, in index order; the first failing realize names its index and later CPUs are never realized |
| MachineInit.RegisteredExactlyOnce | machine/src/lib.rs:215-231 | each created CPU is registered for migration exactly once and no other id is registered, with or without a boot configuration and whether or not realize fails |
| MachineInit.Listeners | machine/src/lib.rs:167-175 | the listener registrations start with the memory listener and include the I/O-port listener iff there is an I/O address space; each listener is registered once |
| MachineInit.InsertRam | machine/src/lib.rs:179-191 | guest RAM is mapped once, first, then each mapping is inserted in order, and the memory instance is registered at most once, last; success iff every insertion succeeds, and then exactly the mappings were inserted and the memory instance registered last; on failure the error names the first failing mapping's base and size, the mappings before it stay inserted, and the memory instance is not registered |
| MachineInit.RamStage | machine/src/lib.rs:177-195 | a migration target inserts no RAM and registers the memory instance at once; a failed host mapping fails with the mapping error after the map attempt alone, before any insertion; once the host mapping succeeds, the stage is exactly the in-order insertion `InsertRam`, whose failure names the first failing mapping |
| MachineInit.InitMemory | machine/src/lib.rs:160-196 | starts with the memory listener; once both listeners are registered, the log is exactly the listeners followed by the RAM stage; success iff both listeners (the I/O one only where it exists) register and then either the machine is a migration target or every mapping and insertion succeeds; the memory instance is registered, last, exactly on success; a memory-listener failure returns `MemListenerFailed` after that registration alone, and an I/O-listener failure returns `IoListenerFailed` after the two registrations, inserting no RAM |
| MachineInit.ListenersBeforeRam | machine/src/lib.rs:167-191 | every listener registration comes before every RAM insertion; the I/O-port listener is registered exactly where there is an I/O address space; a migration target maps no RAM |
| MachineInit.InitMemoryRamRegions | machine/src/lib.rs:177-191 | the guest address space holds nothing on a migration target or after a failed host mapping (which fails the call), every mapping in order on success, and on an insertion failure exactly the mappings before the failing one, with the error naming that mapping's base and size; once the listeners are registered and the host mapping succeeds, any failed insertion makes the call fail with the `RegMemRegionErr` of the first failing mapping, after inserting exactly the mappings up to it |
| MachineInit.RegisterSeccomp | machine/src/lib.rs:415-429 | the filter holds the syscall whitelist first, unchanged and complete, followed by exactly the balloon rules iff the balloon is enabled; the result is the filter's realize outcome |
| MachineInit.BalloonOnlyAddsRules | machine/src/lib.rs:417-420 | enabling the balloon adds exactly the balloon rules to the rules pushed without it |
| PulseAudio.BaseRate | devices/src/misc/scream/pulseaudio.rs:161-165 | a rate byte selects 44.1 kHz as its base exactly when bit 7 is set, and 48 kHz otherwise |
| PulseAudio.DecodeRate | devices/src/misc/scream/pulseaudio.rs:161-165 | the decoded rate is the base rate times the low seven bits, zero exactly when those bits are zero, and always fits a u32 |
| PulseAudio.EncodeRate | devices/src/misc/scream/pulseaudio.rs:161-165 | the packed byte has bit 7 set iff the base is 44.1 kHz and carries the multiplier in its low seven bits |
| PulseAudio.RateRoundTrip | devices/src/misc/scream/pulseaudio.rs:161-165 | decoding an encoded rate gives base times multiplier, and every byte is the encoding of its own base bit and multiplier |
| PulseAudio.DecodeRateInjective | devices/src/misc/scream/pulseaudio.rs:161-165 | two bytes that decode to the same nonzero rate are the same byte |
| PulseAudio.SampleFormatOf | devices/src/misc/scream/pulseaudio.rs:167-178 | sizes 16, 24 and 32 select S16le, S24le and S32le and no other size has a format |
| PulseAudio.FormatRoundTrip | devices/src/misc/scream/pulseaudio.rs:167-170 | every format is selected by its own sample size |
| PulseAudio.SetBitsSpec | devices/src/misc/scream/pulseaudio.rs:136-143 | the reference list of a mask's speaker bits holds exactly the set bits below 32, each once, in ascending order |
| PulseAudio.KeyPosition | devices/src/misc/scream/pulseaudio.rs:144-150 | a key below 11 maps through the position table; any other key, including the -1 of an empty mask, maps to the front centre |
| PulseAudio.ChannelPositions | devices/src/misc/scream/pulseaudio.rs:125-128 | the channel map holds exactly `channels` positions |
| PulseAudio.TransferChannelMap | devices/src/misc/scream/pulseaudio.rs:125-152 | the scanning loop gives channel `i` the speaker of the `i`-th set bit while set bits remain, then repeats the last set bit's speaker, or the front centre for an empty mask |
| PulseAudio.NextKey | devices/src/misc/scream/pulseaudio.rs:137-142 | the inner scan returns the lowest set bit strictly above the current key, or the key itself when there is none |
| PulseAudio.StepKey | devices/src/misc/scream/pulseaudio.rs:136-143 | one scan step moves from the key held before channel `i` to the key channel `i` ends up with |
| PulseAudio.KeysIncrease | devices/src/misc/scream/pulseaudio.rs:136-143 | while set bits remain the keys strictly increase, so no speaker bit is used twice |
| PulseAudio.KeysAreSetBits | devices/src/misc/scream/pulseaudio.rs:136-143 | for a nonempty mask every key the scan ends with is a set bit of the mask |
| PulseAudio.FivePointOneLayout | devices/src/misc/scream/pulseaudio.rs:37-49 | a 5.1 mask over six channels lists front left, front right, front centre, LFE, rear left and rear right |
| PulseAudio.Init | devices/src/misc/scream/pulseaudio.rs:74-123 | the initial stream is 44.1 kHz, 16-bit stereo on the stereo map with a 50 ms target latency and the all-zero stored format; it exists iff the library opens it |
| PulseAudio.RequestedMap | devices/src/misc/scream/pulseaudio.rs:180-186 | one channel asks for the mono map, two for the stereo map, any other count for the mask's transferred map |
| PulseAudio.CheckFmtUpdate | devices/src/misc/scream/pulseaudio.rs:154-225 | an unchanged format is a no-op; otherwise the format is stored, the channel count taken, an invalid map replaced by the extended one; a supported size sets the matching sample format; an unsupported size (which keeps the old format) or an unsuitable map gives rate 0; a live rate is the decoded one with a matching format; a stream is reopened only for a nonzero rate |
| PulseAudio.CheckFmtUpdateIdempotent | devices/src/misc/scream/pulseaudio.rs:155-157 | reconfiguring twice for the same format is reconfiguring once |
| PulseAudio.Send | devices/src/misc/scream/pulseaudio.rs:227-249 | the state after a send is the state `check_fmt_update` leaves; a period is written iff that state has a nonzero rate and an open stream; an unchanged format leaves the state alone |
| PulseAudio.Receive | devices/src/misc/scream/pulseaudio.rs:251-274 | after reconfiguring, reading succeeds iff a stream is open and the read succeeds; a successful read or a missing stream leaves the reconfigured state; a read error on an open stream zeroes the rate and changes nothing else |
| PulseAudio.UnsupportedSizeSilences | devices/src/misc/scream/pulseaudio.rs:171-177 | after a switch to an unsupported sample size, no number of sends with that format writes anything |
| PulseAudio.ReadErrorStopsPlayback | devices/src/misc/scream/pulseaudio.rs:267-271 | a read error fails the receive, and a send with the same format then writes nothing |
| PulseAudio.CaptureIgnoresRate | devices/src/misc/scream/pulseaudio.rs:251-256 | after a switch to an unsupported size, an already open stream is still read although the rate is 0 and sends are dropped |
| ScsiConfig.GetUnsigned | machine_manager/src/config/scsi.rs:182-195 | an absent key is None; a present value converts iff it is an integer below the width's limit, and otherwise fails naming the key |
| ScsiConfig.DefaultController | machine_manager/src/config/scsi.rs:39-48 | the default controller has an empty id, no iothread and one queue, the smallest count `check` accepts |
| ScsiConfig.CheckController | machine_manager/src/config/scsi.rs:51-77 | accepts iff the id and iothread name fit the string limit and the queue count is in 1..=32; reports the id error, then the iothread error, then the queue-count error, each exactly when the checks before it pass |
| ScsiConfig.ParseScsiController | machine_manager/src/config/scsi.rs:80-121 | fails on the PCI check, then a missing id, then an unconvertible `num-queues`, then `check`, whose own error is returned; every accepted controller passes `check` and carries the given id and iothread and the chosen queue count; success iff all of these hold |
| ScsiConfig.ExplicitQueuesOverrideAuto | machine_manager/src/config/scsi.rs:113-117 | an explicit `num-queues` makes the automatic count irrelevant |
| ScsiConfig.ControllerRoundTrip | machine_manager/src/config/scsi.rs:80-121 | every controller `check` accepts is what its own option string parses to, whatever the automatic count |
| ScsiConfig.ParseAddress | machine_manager/src/config/scsi.rs:182-209 | an accepted address has the requested target and lun, each 0 when absent, with the target at most 255 and the lun at most 255; an unconvertible `scsi-id` fails first, then an unconvertible `lun`, then a lun above 255, each with its own error; the lun check is the only range error that can occur |
| ScsiConfig.AttachDrive | machine_manager/src/config/scsi.rs:211-216 | the named drive leaves the table and nothing else changes; its path, read-only, direct and aio settings are copied; with no such drive the device keeps its defaults |
| ScsiConfig.ParseScsiDevice | machine_manager/src/config/scsi.rs:145-219 | fails on a missing drive, then id, then bus, then passes on the address error unchanged; a failed parse leaves the drive table as it was; success iff these are present and the address is accepted, and then the device carries the given id, bus, serial and address on channel 0 with the drive's host settings, and that drive alone left the table |
| ScsiConfig.WideTargetIsConversionError | machine_manager/src/config/scsi.rs:182-193 | a scsi-id of 256 or more is a conversion error, never the target range error |
| ScsiConfig.DeviceRoundTrip | machine_manager/src/config/scsi.rs:145-219 | a device whose lun is addressable parses back from its own option string, taking its host settings from the drive it names, which then leaves the table while every other drive stays, whatever else the table holds |

## Left out

- The vCPU threads, the start-up barrier and the KVM vCPU descriptors. Each
  per-vCPU start, pause, resume or destroy is an abstract step with a given
  outcome, and the barrier wait is an event.
- MachineInit.InitVcpu: requires at least `nr_cpus` vCPU descriptors. With
  fewer, the source panics on an out-of-bounds index, and the model does
  not describe that panic.
- MachineInit.InitVcpu: the creation of each CPU object is not logged.
  The returned CPU list stands for it, and the log holds only the migration
  registrations and the realize calls.
- Devices.AddDevices: its outcome does not carry the two migration
  registrations each successful vsock entry makes. `Devices.AddVirtioVsock`
  states them per entry.
- The `KvmVmState` type is defined outside `machine/src/lib.rs`. The model
  uses the four states the lifecycle code names.
- The aarch64 interrupt controller is a platform flag. The only effect
  modelled is its stop event after a successful pause.
- `register_power_event`, `realize`, `run`, `arch_ram_ranges`,
  `load_boot_source` and the per-device `add_*` bodies of the concrete
  machines. Their logic is event-loop I/O or lives in other files. The
  mappings `init_memory` inserts are a given sequence, and its
  `create_host_mmaps` failure is `mmaps == None`.
- Error message texts and `chain_err` context strings. Errors are datatypes
  that carry the category label, index, or base and size.
- The PulseAudio library: opening, reading and writing streams,
  `is_valid`, `init_extend`, `is_compatible_with_sample_spec`, and buffer
  sizing with `usec_to_bytes`. Their outcomes are parameters. The buffer
  attributes are not modelled.
- The shared-memory slices and the memory fence in `send` and `receive`.
  The audio data itself is not modelled. A write error in `send` is only
  logged, and the model reports that a write was attempted.
- PulseAudio.StreamFmt: only the four fields `check_fmt_update` reads are
  modelled (rate, size, channels, channel mask). The default stored format
  is taken to be all zero, because `ShmemStreamFmt` is defined outside the
  modelled files.
- PulseAudio.TransferChannelMap: a channel map holds as many positions as
  the format asks for. The library's fixed capacity for positions is not
  modelled.
- PulseAudio.Init: where the source panics because the initial stream
  cannot be opened, the model returns None.
- The command-line tokenizer `CmdParser`, its text-to-number conversion, and
  `pci_args_check`. The parsed map is the input, and the outcome of the PCI
  check is the parameter `pciOk`. `MAX_STRING_LENGTH` (255) and
  `MAX_VIRTIO_QUEUE` (32) are defined outside `scsi.rs` and appear here as
  constants.
- ScsiConfig.CheckController: string lengths count characters, not UTF-8
  bytes as Rust's `len` does.

=== FILE: devices.dfy ===
/**
 * The device realization pipeline of `MachineOps` (machine/src/lib.rs):
 * `add_devices`, `add_virtio_vsock` and the trait's default device hooks.
 *
 * The per-device `add_*` bodies belong to the concrete machines and are not
 * part of this model: a machine is a record of hooks, each a total function
 * from a device configuration to success or a root cause.  A hook the
 * machine does not override is `None` and behaves as the trait default.
 */
module Devices {
  import opened Wrappers
  import opened Sequential

  /** A device's parsed configuration; its contents belong to the device model. */
  datatype DeviceConfig = DeviceConfig(id: string)

  /** The fields of `VmConfig` that `add_devices` reads. */
  datatype VmConfig = VmConfig(
    memSize: nat,
    serial: Option<DeviceConfig>,
    pflashs: Option<seq<DeviceConfig>>,
    drives: Option<seq<DeviceConfig>>,
    nets: Option<seq<DeviceConfig>>,
    consoles: Option<seq<DeviceConfig>>,
    balloon: Option<DeviceConfig>,
    rng: Option<DeviceConfig>,
    devices: seq<(string, string)>)   // (device type name, raw arguments)

  /** The root cause of a failed hook. */
  datatype Cause = Reason(text: string) | RlzVirtioMmioErr(inner: Cause)

  type Outcome = Result<(), Cause>

  datatype DeviceError =
    | AddDevErr(dev: string, cause: Cause)   // "Failed to add <dev> device."
    | Propagated(cause: Cause)               // returned with `?` and no label
    | UnsupportedDevice(name: string)        // "Unsupported device: <name>"

  datatype MachineHooks = MachineHooks(
    addRtc: nat -> Outcome,
    addSerial: DeviceConfig -> Outcome,
    addPFlash: Option<DeviceConfig -> Outcome>,
    addBlock: DeviceConfig -> Outcome,
    addNet: DeviceConfig -> Outcome,
    addConsole: DeviceConfig -> Outcome,
    addBalloon: DeviceConfig -> Outcome,
    addRng: Option<DeviceConfig -> Outcome>,
    parseVsock: string -> Outcome,
    realizeVirtioMmio: Option<string -> Outcome>)

  const PFLASH_UNSUPPORTED := "Pflash device is not supported!"
  const VIRTIO_MMIO_UNSUPPORTED := "Virtio mmio devices not supported"
  const VSOCK_DEVICE := "vhost-vsock-device"

  /** `add_pflash_device`: the trait default refuses every flash device. */
  function AddPFlashDevice(h: MachineHooks, cfg: DeviceConfig): (r: Outcome)
    ensures h.addPFlash.None? ==> r == Err(Reason(PFLASH_UNSUPPORTED))
    ensures h.addPFlash.Some? ==> r == h.addPFlash.value(cfg)
  {
    match h.addPFlash
    case None => Err(Reason(PFLASH_UNSUPPORTED))
    case Some(add) => add(cfg)
  }

  /** `add_rng_device`: the trait default accepts every entropy device. */
  function AddRngDevice(h: MachineHooks, cfg: DeviceConfig): (r: Outcome)
    ensures h.addRng.None? ==> r == Ok(())
    ensures h.addRng.Some? ==> r == h.addRng.value(cfg)
  {
    match h.addRng
    case None => Ok(())
    case Some(add) => add(cfg)
  }

  /** `realize_virtio_mmio_device`: the trait default reports that the machine
      has no virtio-mmio transport. */
  function RealizeVirtioMmio(h: MachineHooks, args: string): (r: Outcome)
    ensures h.realizeVirtioMmio.None? ==> r == Err(Reason(VIRTIO_MMIO_UNSUPPORTED))
    ensures h.realizeVirtioMmio.Some? ==> r == h.realizeVirtioMmio.value(args)
  {
    match h.realizeVirtioMmio
    case None => Err(Reason(VIRTIO_MMIO_UNSUPPORTED))
    case Some(realize) => realize(args)
  }

  /** The device state a successful vsock set-up registers for migration. */
  datatype MigrationEntry = VirtioMmioState | VsockState

  datatype VsockOutcome = VsockOutcome(result: Outcome, registered: seq<MigrationEntry>)

  /** `add_virtio_vsock`: parse the arguments, realize the vsock behind a
      virtio-mmio transport, then register the transport and the vsock. */
  function AddVirtioVsock(h: MachineHooks, args: string): (r: VsockOutcome)
    ensures r.result.Ok? <==> h.parseVsock(args).Ok? && RealizeVirtioMmio(h, args).Ok?
    // a parse error is returned as it is
    ensures h.parseVsock(args).Err? ==> r.result == h.parseVsock(args)
    // a realize error is wrapped as "Failed to realize virtio mmio."
    ensures h.parseVsock(args).Ok? && RealizeVirtioMmio(h, args).Err? ==>
              r.result == Err(RlzVirtioMmioErr(RealizeVirtioMmio(h, args).error))
    // registration happens only after a successful realize, transport first
    ensures r.registered == if r.result.Ok? then [VirtioMmioState, VsockState] else []
    // machines that keep the default transport hook never get a vsock
    ensures h.realizeVirtioMmio.None? ==> r.result.Err?
  {
    match h.parseVsock(args)
    case Err(e) => VsockOutcome(Err(e), [])
    case Ok(_) =>
      match RealizeVirtioMmio(h, args)
      case Err(e) => VsockOutcome(Err(RlzVirtioMmioErr(e)), [])
      case Ok(_) => VsockOutcome(Ok(()), [VirtioMmioState, VsockState])
  }

  datatype Category = Serial | PFlash | Block | Net | Console | Balloon | Rng

  /** One step of the pipeline. */
  datatype DeviceRequest =
    | AddRtc(memSize: nat)
    | AddDevice(category: Category, cfg: DeviceConfig)
    | AddGeneric(name: string, args: string)

  /** The label a category's failures are wrapped with; an entropy-device
      failure is propagated without one. */
  function Label(c: Category): Option<string>
  {
    match c
    case Serial => Some("serial")
    case PFlash => Some("pflash")
    case Block => Some("block")
    case Net => Some("net")
    case Console => Some("console")
    case Balloon => Some("balloon")
    case Rng => None
  }

  function Hook(h: MachineHooks, c: Category, cfg: DeviceConfig): Outcome
  {
    match c
    case Serial => h.addSerial(cfg)
    case PFlash => AddPFlashDevice(h, cfg)
    case Block => h.addBlock(cfg)
    case Net => h.addNet(cfg)
    case Console => h.addConsole(cfg)
    case Balloon => h.addBalloon(cfg)
    case Rng => AddRngDevice(h, cfg)
  }

  function Labelled(tag: Option<string>, o: Outcome): Result<(), DeviceError>
  {
    match o
    case Ok(_) => Ok(())
    case Err(c) => if tag.Some? then Err(AddDevErr(tag.value, c)) else Err(Propagated(c))
  }

  /** Carry out one step of the pipeline. */
  function Attempt(h: MachineHooks, req: DeviceRequest): (r: Result<(), DeviceError>)
  {
    match req
    case AddRtc(m) => Labelled(Some("RTC"), h.addRtc(m))
    case AddDevice(c, cfg) => Labelled(Label(c), Hook(h, c, cfg))
    case AddGeneric(name, args) =>
      if name == VSOCK_DEVICE then Labelled(None, AddVirtioVsock(h, args).result)
      else Err(UnsupportedDevice(name))
  }

  datatype PipelineOutcome = PipelineOutcome(result: Result<(), DeviceError>, attempted: seq<DeviceRequest>)

  /** Whether each step of `reqs` would succeed, step by step. */
  function Succeeded(h: MachineHooks, reqs: seq<DeviceRequest>): seq<bool>
  {
    seq(|reqs|, i requires 0 <= i < |reqs| => Attempt(h, reqs[i]).Ok?)
  }

  ghost predicate AllSucceed(h: MachineHooks, reqs: seq<DeviceRequest>)
  {
    forall i | 0 <= i < |reqs| :: Attempt(h, reqs[i]).Ok?
  }

  function Requests(c: Category, cfgs: seq<DeviceConfig>): seq<DeviceRequest>
  {
    seq(|cfgs|, i requires 0 <= i < |cfgs| => AddDevice(c, cfgs[i]))
  }

  function Listed(o: Option<seq<DeviceConfig>>): seq<DeviceConfig>
  {
    if o.Some? then o.value else []
  }

  function Single(o: Option<DeviceConfig>): seq<DeviceConfig>
  {
    if o.Some? then [o.value] else []
  }

  /** The pipeline's stages, in the order `add_devices` runs them. */
  function Stages(vm: VmConfig): (st: seq<seq<DeviceRequest>>)
  {
    [ [AddRtc(vm.memSize)],
      Requests(Serial, Single(vm.serial)),
      Requests(PFlash, Listed(vm.pflashs)),
      Requests(Block, Listed(vm.drives)),
      Requests(Net, Listed(vm.nets)),
      Requests(Console, Listed(vm.consoles)),
      Requests(Balloon, Single(vm.balloon)),
      Requests(Rng, Single(vm.rng)),
      seq(|vm.devices|, i requires 0 <= i < |vm.devices| => AddGeneric(vm.devices[i].0, vm.devices[i].1)) ]
  }

  const RTC_STAGE := 0
  const PFLASH_STAGE := 2
  const BLOCK_STAGE := 3
  const RNG_STAGE := 7
  const GENERIC_STAGE := 8

  function Flatten<T>(ss: seq<seq<T>>): seq<T>
    decreases |ss|
  {
    if |ss| == 0 then [] else ss[0] + Flatten(ss[1..])
  }

  /** Every step `add_devices` would take, in order. */
  function Plan(vm: VmConfig): seq<DeviceRequest>
  {
    Flatten(Stages(vm))
  }

  /** `add_devices`: run the plan in order, stopping at the first failure. */
  function AddDevices(h: MachineHooks, vm: VmConfig): (r: PipelineOutcome)
    ensures r.result.Ok? <==> AllSucceed(h, Plan(vm))
    ensures r.result.Ok? ==> r.attempted == Plan(vm)
    // on failure, the attempted steps are a prefix of the plan whose last
    // step failed with exactly the returned error and whose earlier steps
    // all succeeded
    ensures r.result.Err? ==>
              && 0 < |r.attempted| <= |Plan(vm)|
              && r.attempted == Plan(vm)[..|r.attempted|]
              && FailsFirstAt(Succeeded(h, Plan(vm)), |r.attempted| - 1)
              && Attempt(h, Plan(vm)[|r.attempted| - 1]) == Err(r.result.error)
    // the RTC is always attempted first
    ensures r.attempted[0] == AddRtc(vm.memSize)
  {
    var plan := Plan(vm);
    var ok := Succeeded(h, plan);
    var k := FirstFailure(ok);
    assert plan[0] == AddRtc(vm.memSize);
    assert forall i | 0 <= i < |plan| :: ok[i] == Attempt(h, plan[i]).Ok?;
    if k < |plan| then PipelineOutcome(Attempt(h, plan[k]), plan[..k + 1])
    else PipelineOutcome(Ok(()), plan)
  }

  /** The position of a step's kind in the fixed order of the pipeline. */
  function Rank(req: DeviceRequest): nat
  {
    match req
    case AddRtc(_) => 0
    case AddDevice(c, _) =>
      (match c
       case Serial => 1
       case PFlash => 2
       case Block => 3
       case Net => 4
       case Console => 5
       case Balloon => 6
       case Rng => 7)
    case AddGeneric(_, _) => 8
  }

  ghost predicate SortedByRank(reqs: seq<DeviceRequest>)
  {
    forall i, j | 0 <= i < j < |reqs| :: Rank(reqs[i]) <= Rank(reqs[j])
  }

  lemma {:induction false} FlattenAppend<T>(a: seq<seq<T>>, b: seq<seq<T>>)
    ensures Flatten(a + b) == Flatten(a) + Flatten(b)
    decreases |a|
  {
    if |a| == 0 {
      assert a + b == b;
    } else {
      assert (a + b)[1..] == a[1..] + b;
      FlattenAppend(a[1..], b);
    }
  }

  /** Stages whose steps all carry rank `base + stage index` flatten to a
      sequence sorted by rank, every rank at least `base`. */
  lemma {:induction false} FlattenRanked(ss: seq<seq<DeviceRequest>>, base: nat)
    requires forall s, x | 0 <= s < |ss| && x in ss[s] :: Rank(x) == base + s
    ensures SortedByRank(Flatten(ss))
    ensures forall x | x in Flatten(ss) :: base <= Rank(x)
    decreases |ss|
  {
    if |ss| > 0 {
      var rest := ss[1..];
      forall s, x | 0 <= s < |rest| && x in rest[s]
        ensures Rank(x) == base + 1 + s
      {
        assert rest[s] == ss[s + 1];
      }
      FlattenRanked(rest, base + 1);
      var f := Flatten(ss);
      assert f == ss[0] + Flatten(rest);
      forall i, j | 0 <= i < j < |f|
        ensures Rank(f[i]) <= Rank(f[j])
      {
        if j < |ss[0]| {
          assert f[i] in ss[0] && f[j] in ss[0];
        } else if i < |ss[0]| {
          assert f[i] in ss[0];
          assert f[j] in Flatten(rest);
        } else {
          assert f[i] == Flatten(rest)[i - |ss[0]|];
          assert f[j] == Flatten(rest)[j - |ss[0]|];
        }
      }
      forall x | x in f
        ensures base <= Rank(x)
      {
        if x in ss[0] {
        } else {
          assert x in Flatten(rest);
        }
      }
    }
  }

  /** `add_devices` runs its steps in the fixed order RTC, serial, pflash,
      drives, nets, consoles, balloon, rng, generic devices, starting with
      the RTC, which is added unconditionally. */
  lemma PlanOrder(vm: VmConfig)
    ensures |Plan(vm)| > 0 && Plan(vm)[0] == AddRtc(vm.memSize)
    ensures SortedByRank(Plan(vm))
  {
    var st := Stages(vm);
    forall s, x | 0 <= s < |st| && x in st[s]
      ensures Rank(x) == s
    {
    }
    FlattenRanked(st, 0);
    assert Plan(vm) == st[0] + Flatten(st[1..]);
  }

  /** The pipeline stops at step `k` when every earlier step succeeds and
      step `k` fails. */
  lemma FailureAt(h: MachineHooks, vm: VmConfig, k: nat)
    requires k < |Plan(vm)|
    requires AllSucceed(h, Plan(vm)[..k])
    requires Attempt(h, Plan(vm)[k]).Err?
    ensures AddDevices(h, vm) == PipelineOutcome(Attempt(h, Plan(vm)[k]), Plan(vm)[..k + 1])
  {
    var plan := Plan(vm);
    var ok := Succeeded(h, plan);
    assert FailsFirstAt(ok, k) by {
      forall i | 0 <= i < k
        ensures ok[i]
      {
        assert plan[..k][i] == plan[i];
      }
    }
    assert FirstFailure(ok) == k;
  }

  /** Stage `s` sits in the plan right after the stages before it. */
  lemma StageInPlan(vm: VmConfig, s: nat)
    requires s < |Stages(vm)|
    ensures Plan(vm) == Flatten(Stages(vm)[..s]) + (Stages(vm)[s] + Flatten(Stages(vm)[s + 1..]))
  {
    var st := Stages(vm);
    var single: seq<seq<DeviceRequest>> := [st[s]];
    assert st == st[..s] + (single + st[s + 1..]);
    FlattenAppend(st[..s], single + st[s + 1..]);
    FlattenAppend(single, st[s + 1..]);
    assert Flatten(single) == st[s] by {
      assert single[1..] == [];
    }
  }

  /** The first failing step within stage `s` aborts the pipeline: the error
      is that step's own, and exactly the earlier stages and the steps of
      stage `s` up to the failing one were attempted. */
  lemma StageFailure(h: MachineHooks, vm: VmConfig, s: nat, j: nat)
    requires s < |Stages(vm)| && j < |Stages(vm)[s]|
    requires AllSucceed(h, Flatten(Stages(vm)[..s]))
    requires AllSucceed(h, Stages(vm)[s][..j])
    requires Attempt(h, Stages(vm)[s][j]).Err?
    ensures AddDevices(h, vm).result == Attempt(h, Stages(vm)[s][j])
    ensures AddDevices(h, vm).attempted == Flatten(Stages(vm)[..s]) + Stages(vm)[s][..j + 1]
  {
    var before := Flatten(Stages(vm)[..s]);
    var stage := Stages(vm)[s];
    StageInPlan(vm, s);
    var plan := Plan(vm);
    var k := |before| + j;
    assert plan[..k] == before + stage[..j];
    assert AllSucceed(h, plan[..k]) by {
      forall i | 0 <= i < k
        ensures Attempt(h, plan[..k][i]).Ok?
      {
        if i < |before| {
          assert plan[..k][i] == before[i];
        } else {
          assert plan[..k][i] == stage[..j][i - |before|];
        }
      }
    }
    assert plan[k] == stage[j];
    FailureAt(h, vm, k);
    assert plan[..k + 1] == before + stage[..j + 1];
  }

  /** A failing drive among valid ones: the error carries the "block" label
      and only the steps up to that drive were attempted. */
  lemma BlockFailureLabelled(h: MachineHooks, vm: VmConfig, j: nat)
    requires vm.drives.Some? && j < |vm.drives.value|
    requires AllSucceed(h, Flatten(Stages(vm)[..BLOCK_STAGE]))
    requires forall i | 0 <= i < j :: h.addBlock(vm.drives.value[i]).Ok?
    requires h.addBlock(vm.drives.value[j]).Err?
    ensures AddDevices(h, vm).result == Err(AddDevErr("block", h.addBlock(vm.drives.value[j]).error))
    ensures AddDevices(h, vm).attempted ==
              Flatten(Stages(vm)[..BLOCK_STAGE]) + Requests(Block, vm.drives.value[..j + 1])
  {
    var stage := Stages(vm)[BLOCK_STAGE];
    assert stage == Requests(Block, vm.drives.value);
    assert stage[j] == AddDevice(Block, vm.drives.value[j]);
    forall i | 0 <= i < |stage[..j]|
      ensures Attempt(h, stage[..j][i]).Ok?
    {
      assert stage[..j][i] == AddDevice(Block, vm.drives.value[i]);
    }
    StageFailure(h, vm, BLOCK_STAGE, j);
    assert stage[..j + 1] == Requests(Block, vm.drives.value[..j + 1]);
  }

  /** An entropy-device failure is returned as the hook reported it, with no
      "Failed to add" label, unlike every other category. */
  lemma RngFailureUnlabelled(h: MachineHooks, vm: VmConfig)
    requires vm.rng.Some?
    requires AllSucceed(h, Flatten(Stages(vm)[..RNG_STAGE]))
    requires AddRngDevice(h, vm.rng.value).Err?
    ensures AddDevices(h, vm).result == Err(Propagated(AddRngDevice(h, vm.rng.value).error))
  {
    var stage := Stages(vm)[RNG_STAGE];
    assert stage[0] == AddDevice(Rng, vm.rng.value);
    assert stage[..0] == [];
    StageFailure(h, vm, RNG_STAGE, 0);
  }

  /** A generic device other than the vsock fails with "Unsupported device",
      after every earlier step, including earlier generic entries, ran. */
  lemma UnsupportedGenericDevice(h: MachineHooks, vm: VmConfig, j: nat)
    requires j < |vm.devices| && vm.devices[j].0 != VSOCK_DEVICE
    requires AllSucceed(h, Flatten(Stages(vm)[..GENERIC_STAGE]))
    requires forall i | 0 <= i < j :: vm.devices[i].0 == VSOCK_DEVICE &&
                                      AddVirtioVsock(h, vm.devices[i].1).result.Ok?
    ensures AddDevices(h, vm).result == Err(UnsupportedDevice(vm.devices[j].0))
    ensures |AddDevices(h, vm).attempted| == |Flatten(Stages(vm)[..GENERIC_STAGE])| + j + 1
  {
    var stage := Stages(vm)[GENERIC_STAGE];
    forall i | 0 <= i < |stage[..j]|
      ensures Attempt(h, stage[..j][i]).Ok?
    {
      assert stage[..j][i] == AddGeneric(vm.devices[i].0, vm.devices[i].1);
    }
    StageFailure(h, vm, GENERIC_STAGE, j);
  }

  /** On a machine that keeps the default pflash hook, any configured flash
      device fails the pipeline with the "pflash" label. */
  lemma DefaultPFlashRejected(h: MachineHooks, vm: VmConfig)
    requires h.addPFlash.None?
    requires vm.pflashs.Some? && |vm.pflashs.value| > 0
    requires AllSucceed(h, Flatten(Stages(vm)[..PFLASH_STAGE]))
    ensures AddDevices(h, vm).result == Err(AddDevErr("pflash", Reason(PFLASH_UNSUPPORTED)))
  {
    var stage := Stages(vm)[PFLASH_STAGE];
    assert stage[0] == AddDevice(PFlash, vm.pflashs.value[0]);
    assert stage[..0] == [];
    StageFailure(h, vm, PFLASH_STAGE, 0);
  }
}

=== FILE: integers.dfy ===
/** Rust's unsigned integer widths, shared by every module of the model. */
module Integers {

  const U8_LIMIT: nat := 0x100
  const U16_LIMIT: nat := 0x1_0000
  const U32_LIMIT: nat := 0x1_0000_0000

  type u8 = x: nat | x < U8_LIMIT
  type u16 = x: nat | x < U16_LIMIT
  type u32 = x: nat | x < U32_LIMIT
}

=== FILE: lifecycle.dfy ===
/**
 * The VM lifecycle state machine of `MachineOps` (machine/src/lib.rs):
 * `vm_state_transfer` and the four per-vCPU passes it dispatches to.
 *
 * The vCPU threads, the start-up barrier and the KVM vCPU descriptors are not
 * modelled; each vCPU's start/pause/resume/destroy call is an abstract,
 * fallible step whose outcome is given as `ok[i]`, and every call the pass
 * makes is recorded in an event log.
 */
module Lifecycle {
  import opened Wrappers
  import opened Sequential

  datatype VmState = Created | Running | Paused | Shutdown

  /** The architecture the machine was built for; on aarch64 pausing also
      stops the interrupt controller. */
  datatype Platform = X86_64 | Aarch64

  datatype CpuOp = Start(paused: bool) | Pause | Resume | Destroy

  /** One observable call made while changing the lifecycle state. */
  datatype Event =
    | CpuCall(op: CpuOp, index: nat)
    | IrqChipStop
    | BarrierWait

  datatype LifecycleError =
    | StateCheckFailed                           // "Vm lifecycle error: state check failed."
    | IllegalTransition                          // "Vm lifecycle error: this transform is illegal."
    | VcpuFailed(op: CpuOp, index: nat)          // "Failed to <op> vcpu<index>", wrapped with the stage
    | TransformFailed(from: VmState, to: VmState) // post-dispatch consistency check

  /** What a lifecycle operation returns, the state it leaves behind, and the
      calls it made, in order. */
  datatype Transition = Transition(result: Result<(), LifecycleError>, state: VmState, events: seq<Event>)

  /** The calls `op` on vCPUs 0, 1, ..., n-1, in that order. */
  function CpuCalls(op: CpuOp, n: nat): seq<Event>
  {
    seq(n, i requires 0 <= i < n => CpuCall(op, i))
  }

  /** The (from, to) pairs `vm_state_transfer` accepts: the transition table. */
  predicate LegalTransition(from: VmState, to: VmState)
  {
    to == Shutdown || (from, to) in {(Created, Running), (Running, Paused), (Paused, Running)}
  }

  /**
   * The observable contract of one in-order pass of `op` over the vCPUs,
   * entered in state `before`: when every vCPU succeeds, all of them were
   * called in ascending order, then `tail` happened and the state became
   * `after`; otherwise the pass stopped at the first failing index `k`,
   * vCPUs 0..k were called, none after `k`, and the state is unchanged.
   */
  ghost predicate InOrderPass(op: CpuOp, ok: seq<bool>, before: VmState, after: VmState,
                              tail: seq<Event>, r: Transition)
  {
    if AllOk(ok) then
      r == Transition(Ok(()), after, CpuCalls(op, |ok|) + tail)
    else
      && r.result.Err? && r.result.error.VcpuFailed?
      && FailsFirstAt(ok, r.result.error.index)
      && r == Transition(Err(VcpuFailed(op, r.result.error.index)), before,
                         CpuCalls(op, r.result.error.index + 1))
  }

  /** The shared loop of the four passes. */
  function Pass(op: CpuOp, ok: seq<bool>, before: VmState, after: VmState, tail: seq<Event>): (r: Transition)
    ensures InOrderPass(op, ok, before, after, tail, r)
  {
    var k := FirstFailure(ok);
    if k < |ok| then Transition(Err(VcpuFailed(op, k)), before, CpuCalls(op, k + 1))
    else Transition(Ok(()), after, CpuCalls(op, |ok|) + tail)
  }

  /** `vm_start`: start every vCPU, then set the state (Paused or Running
      according to `paused`) and wait at the start-up barrier. */
  function VmStart(paused: bool, ok: seq<bool>, state: VmState): (r: Transition)
    ensures InOrderPass(Start(paused), ok, state, if paused then Paused else Running, [BarrierWait], r)
  {
    Pass(Start(paused), ok, state, if paused then Paused else Running, [BarrierWait])
  }

  /** `vm_pause`: pause every vCPU; on aarch64 stop the interrupt controller
      afterwards; then set the state to Paused. */
  function VmPause(platform: Platform, ok: seq<bool>, state: VmState): (r: Transition)
    ensures InOrderPass(Pause, ok, state, Paused, if platform == Aarch64 then [IrqChipStop] else [], r)
  {
    Pass(Pause, ok, state, Paused, if platform == Aarch64 then [IrqChipStop] else [])
  }

  /** `vm_resume`: resume every vCPU, then set the state to Running. */
  function VmResume(ok: seq<bool>, state: VmState): (r: Transition)
    ensures InOrderPass(Resume, ok, state, Running, [], r)
  {
    Pass(Resume, ok, state, Running, [])
  }

  /** `vm_destroy`: destroy every vCPU, then set the state to Shutdown. */
  function VmDestroy(ok: seq<bool>, state: VmState): (r: Transition)
    ensures InOrderPass(Destroy, ok, state, Shutdown, [], r)
  {
    Pass(Destroy, ok, state, Shutdown, [])
  }

  /** The per-vCPU operation a legal transition dispatches to. */
  function DispatchedOp(from: VmState, to: VmState): CpuOp
  {
    if to == Shutdown then Destroy
    else if from == Created then Start(false)
    else if from == Running then Pause
    else Resume
  }

  /**
   * `vm_state_transfer`: move the machine from `from` to `to`, given that the
   * current state is `state` and that vCPU `i`'s operation would succeed iff
   * `ok[i]`.
   */
  function VmStateTransfer(platform: Platform, ok: seq<bool>, state: VmState,
                           from: VmState, to: VmState): (r: Transition)
    // a stale expected state is rejected before anything is touched
    ensures state != from ==> r == Transition(Err(StateCheckFailed), state, [])
    // so is a pair outside the transition table
    ensures state == from && !LegalTransition(from, to) ==>
              r == Transition(Err(IllegalTransition), state, [])
    // a legal request runs the matching per-vCPU pass
    ensures state == from && LegalTransition(from, to) ==>
              InOrderPass(DispatchedOp(from, to), ok, state, to,
                          if to == Paused && platform == Aarch64 then [IrqChipStop]
                          else if from == Created && to == Running then [BarrierWait]
                          else [], r)
    ensures r.result.Ok? <==> state == from && LegalTransition(from, to) && AllOk(ok)
    ensures r.result.Ok? ==> r.state == to
    ensures r.result.Err? ==> r.state == state
    // the post-dispatch consistency check never fires
    ensures !(r.result.Err? && r.result.error.TransformFailed?)
  {
    if state != from then Transition(Err(StateCheckFailed), state, [])
    else
      var d :=
        match (from, to)
        case (Created, Running) => VmStart(false, ok, state)
        case (Running, Paused) => VmPause(platform, ok, state)
        case (Paused, Running) => VmResume(ok, state)
        case (_, Shutdown) => VmDestroy(ok, state)
        case (_, _) => Transition(Err(IllegalTransition), state, []);
      if d.result.Err? then d
      else if d.state != to then Transition(Err(TransformFailed(from, to)), d.state, d.events)
      else d
  }

  /** One externally requested transition, with the per-vCPU outcomes it meets. */
  datatype Request = Request(ok: seq<bool>, from: VmState, to: VmState)

  /** The state after serving `reqs` one after another from `state`. */
  function Replay(platform: Platform, reqs: seq<Request>, state: VmState): VmState
    decreases |reqs|
  {
    if |reqs| == 0 then state
    else Replay(platform, reqs[1..], VmStateTransfer(platform, reqs[0].ok, state, reqs[0].from, reqs[0].to).state)
  }

  /** Once the machine has left Created it never returns there, whatever
      transitions are requested and however the vCPUs behave. */
  lemma {:induction false} CreatedNeverReentered(platform: Platform, reqs: seq<Request>, state: VmState)
    requires state != Created
    ensures Replay(platform, reqs, state) != Created
    decreases |reqs|
  {
    if |reqs| > 0 {
      var next := VmStateTransfer(platform, reqs[0].ok, state, reqs[0].from, reqs[0].to).state;
      CreatedNeverReentered(platform, reqs[1..], next);
    }
  }

  /** Shutdown is absorbing: no sequence of requests leaves it. */
  lemma {:induction false} ShutdownIsFinal(platform: Platform, reqs: seq<Request>)
    ensures Replay(platform, reqs, Shutdown) == Shutdown
    decreases |reqs|
  {
    if |reqs| > 0 {
      ShutdownIsFinal(platform, reqs[1..]);
    }
  }

  /** Shutdown can be reached from every state: a destroy request naming the
      current state succeeds whenever every vCPU can be destroyed. */
  lemma ShutdownFromAnyState(platform: Platform, ok: seq<bool>, state: VmState)
    requires AllOk(ok)
    ensures VmStateTransfer(platform, ok, state, state, Shutdown)
            == Transition(Ok(()), Shutdown, CpuCalls(Destroy, |ok|))
  {
  }

  /** Pausing four vCPUs where vCPU 2 fails: the error names index 2, vCPUs 0
      and 1 were paused, vCPU 3 was never reached, the state stays Running. */
  lemma PauseScenario(platform: Platform)
    ensures VmStateTransfer(platform, [true, true, false, true], Running, Running, Paused)
            == Transition(Err(VcpuFailed(Pause, 2)), Running,
                          [CpuCall(Pause, 0), CpuCall(Pause, 1), CpuCall(Pause, 2)])
  {
    var ok := [true, true, false, true];
    assert FirstFailure(ok) == 2 by {
      assert FailsFirstAt(ok, 2);
    }
  }
}

=== FILE: machine_init.dfy ===
/**
 * Machine start-up steps of `MachineOps` (machine/src/lib.rs): `init_vcpu`,
 * `init_memory` and `register_seccomp`.
 *
 * KVM, the host memory mappings, the address-space listeners, the migration
 * manager and the seccomp filter are foreign: each of their fallible calls is
 * a given outcome, and the calls made are recorded in order.
 */
module MachineInit {
  import opened Wrappers
  import opened Sequential
  import opened Integers

  datatype InitError =
    | RealizeFailed(index: nat)              // "Failed to realize arch cpu register for CPU <index>/KVM"
    | MemListenerFailed                      // "Failed to register KVM listener for memory space."
    | IoListenerFailed                       // "Failed to register KVM listener for I/O address space."
    | MmapFailed                             // "Failed to mmap guest ram."
    | RegMemRegionErr(base: nat, size: nat)  // "Failed to register region in memory space"
    | SeccompFailed                          // "Failed to init seccomp filter."

  // ---------------------------------------------------------------- init_vcpu

  /** A logical CPU: its index and the KVM vCPU descriptor it wraps. */
  datatype Cpu = Cpu(id: nat, fd: nat)

  datatype VcpuEvent = RegisterCpuInstance(id: nat) | RealizeCpu(id: nat)

  datatype VcpuInit = VcpuInit(result: Result<seq<Cpu>, InitError>, events: seq<VcpuEvent>)

  function Registrations(n: nat): seq<VcpuEvent>
  {
    seq(n, i requires 0 <= i < n => RegisterCpuInstance(i))
  }

  function Realizations(n: nat): seq<VcpuEvent>
  {
    seq(n, i requires 0 <= i < n => RealizeCpu(i))
  }

  /**
   * `init_vcpu`: create `nrCpus` CPUs over the vCPU descriptors `fds`,
   * registering each with the migration manager as it is created; then, when
   * a boot configuration is given (`boot`), realize each CPU's registers in
   * index order, CPU `i`'s realize succeeding iff `realizeOk[i]`.
   */
  function InitVcpu(nrCpus: nat, fds: seq<nat>, boot: bool, realizeOk: seq<bool>): (r: VcpuInit)
    requires nrCpus < U8_LIMIT      // `nr_cpus` is a u8
    requires nrCpus <= |fds|        // `fds[vcpu_id]` must exist
    requires |realizeOk| == nrCpus
    // every CPU is registered for migration, in index order, before any realize
    ensures nrCpus <= |r.events|
    ensures forall i | 0 <= i < nrCpus :: r.events[i] == RegisterCpuInstance(i)
    // after the registrations come only realize calls, in index order
    ensures forall j | nrCpus <= j < |r.events| :: r.events[j] == RealizeCpu(j - nrCpus)
    // without a boot configuration nothing is realized and nothing fails
    ensures !boot ==> |r.events| == nrCpus && r.result.Ok?
    ensures boot ==> (r.result.Ok? <==> AllOk(realizeOk))
    ensures boot && r.result.Ok? ==> |r.events| == 2 * nrCpus
    // the first failing realize names its index; later CPUs are never realized
    ensures r.result.Err? ==>
              && boot && r.result.error.RealizeFailed?
              && FailsFirstAt(realizeOk, r.result.error.index)
              && |r.events| == nrCpus + r.result.error.index + 1
    // the CPUs returned carry ids 0..nrCpus-1 in order, each on its own descriptor
    ensures r.result.Ok? ==>
              |r.result.value| == nrCpus &&
              forall i | 0 <= i < nrCpus :: r.result.value[i] == Cpu(i, fds[i])
  {
    var cpus := seq(nrCpus, i requires 0 <= i < nrCpus => Cpu(i, fds[i]));
    if !boot then VcpuInit(Ok(cpus), Registrations(nrCpus))
    else
      var k := FirstFailure(realizeOk);
      if k < nrCpus then VcpuInit(Err(RealizeFailed(k)), Registrations(nrCpus) + Realizations(k + 1))
      else VcpuInit(Ok(cpus), Registrations(nrCpus) + Realizations(nrCpus))
  }

  lemma {:induction false} RegistrationCount(n: nat, id: nat)
    ensures multiset(Registrations(n))[RegisterCpuInstance(id)] == if id < n then 1 else 0
    decreases n
  {
    if n > 0 {
      assert Registrations(n) == Registrations(n - 1) + [RegisterCpuInstance(n - 1)];
      RegistrationCount(n - 1, id);
    } else {
      assert Registrations(n) == [];
    }
  }

  /** Each created CPU is registered for migration exactly once, and no other
      id is registered, whether or not a boot configuration is given and
      whether or not realizing fails. */
  lemma RegisteredExactlyOnce(nrCpus: nat, fds: seq<nat>, boot: bool, realizeOk: seq<bool>, id: nat)
    requires nrCpus < U8_LIMIT && nrCpus <= |fds| && |realizeOk| == nrCpus
    ensures multiset(InitVcpu(nrCpus, fds, boot, realizeOk).events)[RegisterCpuInstance(id)]
            == if id < nrCpus then 1 else 0
  {
    var ev := InitVcpu(nrCpus, fds, boot, realizeOk).events;
    var rest := ev[nrCpus..];
    assert ev[..nrCpus] == Registrations(nrCpus);
    assert ev == Registrations(nrCpus) + rest;
    assert RegisterCpuInstance(id) !in rest by {
      forall j | 0 <= j < |rest|
        ensures rest[j] != RegisterCpuInstance(id)
      {
        assert rest[j] == ev[nrCpus + j];
      }
    }
    RegistrationCount(nrCpus, id);
  }

  // -------------------------------------------------------------- init_memory

  /** One host mapping of guest RAM: its guest-physical base and size. */
  datatype HostMmap = HostMmap(base: nat, size: nat)

  datatype MemEvent =
    | RegisterMemListener
    | RegisterIoListener
    | MapGuestRam
    | AddRamRegion(region: HostMmap)
    | RegisterMemoryInstance

  datatype MemInit = MemInit(result: Result<(), InitError>, events: seq<MemEvent>)

  predicate IsListener(e: MemEvent)
  {
    e.RegisterMemListener? || e.RegisterIoListener?
  }

  /** The RAM regions `events` tried to insert, in order. */
  function RamAdds(events: seq<MemEvent>): seq<HostMmap>
    decreases |events|
  {
    if |events| == 0 then []
    else (if events[0].AddRamRegion? then [events[0].region] else []) + RamAdds(events[1..])
  }

  lemma {:induction false} RamAddsAppend(a: seq<MemEvent>, b: seq<MemEvent>)
    ensures RamAdds(a + b) == RamAdds(a) + RamAdds(b)
    decreases |a|
  {
    if |a| == 0 {
      assert a + b == b;
    } else {
      var ab := a + b;
      assert ab[0] == a[0];
      assert ab[1..] == a[1..] + b;
      RamAddsAppend(a[1..], b);
      var h := if a[0].AddRamRegion? then [a[0].region] else [];
      assert RamAdds(ab) == h + (RamAdds(a[1..]) + RamAdds(b));
      assert RamAdds(a) == h + RamAdds(a[1..]);
    }
  }

  function Insertions(m: seq<HostMmap>, n: nat): seq<MemEvent>
    requires n <= |m|
  {
    seq(n, i requires 0 <= i < n => AddRamRegion(m[i]))
  }

  lemma {:induction false} RamAddsOfInsertions(m: seq<HostMmap>, n: nat)
    requires n <= |m|
    ensures RamAdds(Insertions(m, n)) == m[..n]
    decreases n
  {
    if n > 0 {
      assert Insertions(m, n) == Insertions(m, n - 1) + [AddRamRegion(m[n - 1])];
      RamAddsAppend(Insertions(m, n - 1), [AddRamRegion(m[n - 1])]);
      RamAddsOfInsertions(m, n - 1);
      assert RamAdds([AddRamRegion(m[n - 1])]) == [m[n - 1]] by {
        var one := [AddRamRegion(m[n - 1])];
        assert one[1..] == [];
      }
      assert m[..n] == m[..n - 1] + [m[n - 1]];
    } else {
      assert Insertions(m, n) == [];
    }
  }

  /** The listener registrations `init_memory` makes when both succeed:
      the memory listener, then the I/O-port listener where there is an I/O
      address space (x86_64). */
  function Listeners(ioSpace: bool): (ev: seq<MemEvent>)
    ensures |ev| > 0 && ev[0] == RegisterMemListener
    ensures forall i | 0 <= i < |ev| :: IsListener(ev[i])
    ensures RamAdds(ev) == []
    ensures RegisterIoListener in ev <==> ioSpace
    // each listener is registered once
    ensures |ev| == if ioSpace then 2 else 1
  {
    var one := [RegisterMemListener];
    assert RamAdds(one) == [] by {
      assert one[1..] == [];
    }
    if ioSpace then
      var ev := [RegisterMemListener, RegisterIoListener];
      assert ev[1..] == [RegisterIoListener];
      assert RamAdds(ev) == [] by {
        var tail := ev[1..];
        assert tail[1..] == [];
      }
      ev
    else one
  }

  /** Listener registrations followed by events that register none: every
      listener comes before every RAM insertion, the non-listener events
      are those of the second part, and so are the RAM regions. */
  lemma ListenersThenStage(listeners: seq<MemEvent>, stage: seq<MemEvent>)
    requires forall i | 0 <= i < |listeners| :: IsListener(listeners[i])
    requires forall i | 0 <= i < |stage| :: !IsListener(stage[i])
    requires RamAdds(listeners) == []
    ensures forall i, j | 0 <= i < |listeners + stage| && 0 <= j < |listeners + stage| &&
                          IsListener((listeners + stage)[i]) && (listeners + stage)[j].AddRamRegion? :: i < j
    ensures RegisterMemoryInstance in listeners + stage <==> RegisterMemoryInstance in stage
    ensures MapGuestRam in listeners + stage <==> MapGuestRam in stage
    ensures RegisterIoListener in listeners + stage <==> RegisterIoListener in listeners
    ensures RamAdds(listeners + stage) == RamAdds(stage)
    ensures |listeners| > 0 ==> (listeners + stage)[0] == listeners[0]
    ensures |stage| > 0 ==> (listeners + stage)[|listeners + stage| - 1] == stage[|stage| - 1]
  {
    var ev := listeners + stage;
    assert forall i | 0 <= i < |ev| :: IsListener(ev[i]) <==> i < |listeners|;
    RamAddsAppend(listeners, stage);
  }

  /** Listener registrations alone insert no RAM, map none and register no
      memory instance. */
  lemma ListenersOnly(ev: seq<MemEvent>)
    requires forall i | 0 <= i < |ev| :: IsListener(ev[i])
    ensures forall i | 0 <= i < |ev| :: !ev[i].AddRamRegion?
    ensures RegisterMemoryInstance !in ev && MapGuestRam !in ev
  {
  }

  /** Mapping guest RAM and then inserting the first `n` mappings: no
      listener and no migration registration among those events, and
      exactly `m[..n]` inserted. */
  lemma MappedThenInserted(m: seq<HostMmap>, n: nat)
    requires n <= |m|
    ensures var ev := [MapGuestRam] + Insertions(m, n);
            && |ev| == n + 1 && ev[0] == MapGuestRam
            && (forall i | 0 <= i < |ev| :: !IsListener(ev[i]) && ev[i] != RegisterMemoryInstance)
            && (forall i | 0 < i < |ev| :: ev[i] != MapGuestRam)
            && RamAdds(ev) == m[..n]
  {
    var head := [MapGuestRam];
    assert RamAdds(head) == [] by {
      assert head[1..] == [];
    }
    RamAddsAppend(head, Insertions(m, n));
    RamAddsOfInsertions(m, n);
    var ev := head + Insertions(m, n);
    forall i | 0 <= i < |ev|
      ensures !IsListener(ev[i]) && ev[i] != RegisterMemoryInstance
      ensures i > 0 ==> ev[i] != MapGuestRam
    {
      if i > 0 {
        assert ev[i] == Insertions(m, n)[i - 1];
      }
    }
  }

  /** The RAM stage of `init_memory` once the mappings exist: insert each
      mapping in order, then register the address space for migration. */
  function InsertRam(m: seq<HostMmap>, addOk: seq<bool>): (r: MemInit)
    requires |addOk| == |m|
    ensures |r.events| > 0 && r.events[0] == MapGuestRam
    ensures forall i | 0 <= i < |r.events| :: !IsListener(r.events[i])
    ensures r.result.Ok? <==> AllOk(addOk)
    ensures r.result.Ok? <==> RegisterMemoryInstance in r.events
    ensures r.result.Ok? ==> r.events[|r.events| - 1] == RegisterMemoryInstance
    // guest RAM is mapped once, first, and the memory instance registered at most once, last
    ensures forall i | 0 < i < |r.events| :: r.events[i] != MapGuestRam
    ensures forall i | 0 <= i < |r.events| - 1 :: r.events[i] != RegisterMemoryInstance
    ensures r.result.Ok? ==> RamAdds(r.events) == m
    ensures r.result.Err? ==>
              && 0 < |RamAdds(r.events)| <= |m|
              && RamAdds(r.events) == m[..|RamAdds(r.events)|]
              && FailsFirstAt(addOk, |RamAdds(r.events)| - 1)
              && r.result.error == RegMemRegionErr(m[|RamAdds(r.events)| - 1].base,
                                                   m[|RamAdds(r.events)| - 1].size)
  {
    var k := FirstFailure(addOk);
    if k < |m| then
      MappedThenInserted(m, k + 1);
      MemInit(Err(RegMemRegionErr(m[k].base, m[k].size)), [MapGuestRam] + Insertions(m, k + 1))
    else
      MappedThenInserted(m, |m|);
      var ev := [MapGuestRam] + Insertions(m, |m|);
      var last := [RegisterMemoryInstance];
      RamAddsAppend(ev, last);
      assert RamAdds(last) == [] by {
        assert last[1..] == [];
      }
      assert m[..|m|] == m;
      MemInit(Ok(()), ev + last)
  }

  /**
   * `init_memory`: register the KVM memory listener (and, on x86_64, the I/O
   * listener), then, unless the machine is a migration target, map guest RAM
   * (`mmaps` is None when the host mapping fails) and insert each mapping at
   * its base, insertion `i` succeeding iff `addOk[i]`; finally register the
   * memory address space for migration.
   */
  function InitMemory(ioSpace: bool, isMigrate: bool, memListenerOk: bool,
                      ioListenerOk: bool, mmaps: Option<seq<HostMmap>>, addOk: seq<bool>): (r: MemInit)
    requires mmaps.Some? ==> |addOk| == |mmaps.value|
    ensures |r.events| > 0 && r.events[0] == RegisterMemListener
    ensures r.result.Ok? <==>
              memListenerOk && (!ioSpace || ioListenerOk) &&
              (isMigrate || (mmaps.Some? && AllOk(addOk)))
    // the memory instance is registered, last, exactly when every step succeeded
    ensures r.result.Ok? <==> RegisterMemoryInstance in r.events
    ensures r.result.Ok? ==> r.events[|r.events| - 1] == RegisterMemoryInstance
    // with the listeners in place, the RAM stage is all that follows them
    ensures memListenerOk && (!ioSpace || ioListenerOk) ==>
              RamAdds(r.events) == RamAdds(RamStage(isMigrate, mmaps, addOk).events) &&
              r.result == RamStage(isMigrate, mmaps, addOk).result
    ensures !(memListenerOk && (!ioSpace || ioListenerOk)) ==> RamAdds(r.events) == []
    // with the listeners in place, the log is the listeners followed by the RAM stage
    ensures memListenerOk && (!ioSpace || ioListenerOk) ==>
              r.events == Listeners(ioSpace) + RamStage(isMigrate, mmaps, addOk).events
    // a listener failure returns at once with its own error
    ensures !memListenerOk ==> r == MemInit(Err(MemListenerFailed), [RegisterMemListener])
    ensures memListenerOk && ioSpace && !ioListenerOk ==>
              r == MemInit(Err(IoListenerFailed), [RegisterMemListener, RegisterIoListener])
  {
    var one := [RegisterMemListener];
    assert RamAdds(one) == [] by {
      assert one[1..] == [];
    }
    if !memListenerOk then
      ListenersOnly(one);
      MemInit(Err(MemListenerFailed), one)
    else if ioSpace && !ioListenerOk then
      ListenersOnly(Listeners(ioSpace));
      MemInit(Err(IoListenerFailed), Listeners(ioSpace))
    else
      var stage := RamStage(isMigrate, mmaps, addOk);
      ListenersThenStage(Listeners(ioSpace), stage.events);
      MemInit(stage.result, Listeners(ioSpace) + stage.events)
  }

  /** What `init_memory` does once its listeners are registered. */
  function RamStage(isMigrate: bool, mmaps: Option<seq<HostMmap>>, addOk: seq<bool>): (r: MemInit)
    requires mmaps.Some? ==> |addOk| == |mmaps.value|
    ensures |r.events| > 0
    ensures forall i | 0 <= i < |r.events| :: !IsListener(r.events[i])
    ensures isMigrate ==> r == MemInit(Ok(()), [RegisterMemoryInstance])
    ensures isMigrate ==> MapGuestRam !in r.events
    ensures r.result.Ok? <==> isMigrate || (mmaps.Some? && AllOk(addOk))
    ensures r.result.Ok? <==> RegisterMemoryInstance in r.events
    ensures r.result.Ok? ==> r.events[|r.events| - 1] == RegisterMemoryInstance
    ensures isMigrate ==> RamAdds(r.events) == []
    // a failed host mapping stops before any insertion
    ensures !isMigrate && mmaps.None? ==> r == MemInit(Err(MmapFailed), [MapGuestRam])
    // once the host mapping succeeds, the stage is the in-order insertion
    ensures !isMigrate && mmaps.Some? ==> r == InsertRam(mmaps.value, addOk)
    ensures r.result.Ok? && !isMigrate ==> RamAdds(r.events) == mmaps.value
    ensures r.result.Err? && r.result.error.RegMemRegionErr? ==>
              && !isMigrate && mmaps.Some?
              && 0 < |RamAdds(r.events)| <= |mmaps.value|
              && RamAdds(r.events) == mmaps.value[..|RamAdds(r.events)|]
              && FailsFirstAt(addOk, |RamAdds(r.events)| - 1)
              && r.result.error == RegMemRegionErr(mmaps.value[|RamAdds(r.events)| - 1].base,
                                                   mmaps.value[|RamAdds(r.events)| - 1].size)
  {
    if isMigrate then
      var one := [RegisterMemoryInstance];
      assert RamAdds(one) == [] by {
        assert one[1..] == [];
      }
      MemInit(Ok(()), one)
    else if mmaps.None? then MemInit(Err(MmapFailed), [MapGuestRam])
    else InsertRam(mmaps.value, addOk)
  }

  /** `init_memory` registers its listeners before it inserts any RAM
      region; the I/O-port listener is registered exactly where there is an
      I/O address space; a migration target maps no RAM at all. */
  lemma ListenersBeforeRam(ioSpace: bool, isMigrate: bool, memListenerOk: bool,
                           ioListenerOk: bool, mmaps: Option<seq<HostMmap>>, addOk: seq<bool>)
    requires mmaps.Some? ==> |addOk| == |mmaps.value|
    ensures var ev := InitMemory(ioSpace, isMigrate, memListenerOk, ioListenerOk, mmaps, addOk).events;
            && (forall i, j | 0 <= i < |ev| && 0 <= j < |ev| && IsListener(ev[i]) && ev[j].AddRamRegion? :: i < j)
            && (memListenerOk ==> (RegisterIoListener in ev <==> ioSpace))
            && (isMigrate ==> MapGuestRam !in ev)
  {
    var ev := InitMemory(ioSpace, isMigrate, memListenerOk, ioListenerOk, mmaps, addOk).events;
    if !memListenerOk {
      assert ev == [RegisterMemListener];
      ListenersOnly(ev);
    } else if ioSpace && !ioListenerOk {
      assert ev == Listeners(ioSpace);
      ListenersOnly(ev);
    } else {
      var stage := RamStage(isMigrate, mmaps, addOk).events;
      assert ev == Listeners(ioSpace) + stage;
      ListenersThenStage(Listeners(ioSpace), stage);
    }
  }

  /** What `init_memory` leaves in the guest address space: nothing on a
      migration target; every mapping, each at its own base and in order, on
      success; and on an insertion failure the mappings before the failing
      one, which are not taken out again, with the error naming the failing
      mapping's base and size. */
  lemma InitMemoryRamRegions(ioSpace: bool, isMigrate: bool, memListenerOk: bool,
                             ioListenerOk: bool, mmaps: Option<seq<HostMmap>>, addOk: seq<bool>)
    requires mmaps.Some? ==> |addOk| == |mmaps.value|
    ensures var r := InitMemory(ioSpace, isMigrate, memListenerOk, ioListenerOk, mmaps, addOk);
            && (isMigrate ==> RamAdds(r.events) == [])
            && (!isMigrate && mmaps.None? ==> RamAdds(r.events) == [] && r.result.Err?)
            && (r.result.Ok? && !isMigrate ==> RamAdds(r.events) == mmaps.value)
            && (r.result.Err? && r.result.error.RegMemRegionErr? ==>
                  && !isMigrate && mmaps.Some?
                  && 0 < |RamAdds(r.events)| <= |mmaps.value|
                  && RamAdds(r.events) == mmaps.value[..|RamAdds(r.events)|]
                  && FailsFirstAt(addOk, |RamAdds(r.events)| - 1)
                  && r.result.error == RegMemRegionErr(mmaps.value[|RamAdds(r.events)| - 1].base,
                                                       mmaps.value[|RamAdds(r.events)| - 1].size))
            // with the listeners in place, a failed insertion reports the first failing mapping
            && (memListenerOk && (!ioSpace || ioListenerOk) && !isMigrate && mmaps.Some? && !AllOk(addOk) ==>
                  var k := FirstFailure(addOk);
                  && r.result == Err(RegMemRegionErr(mmaps.value[k].base, mmaps.value[k].size))
                  && RamAdds(r.events) == mmaps.value[..k + 1])
  {
    var r := InitMemory(ioSpace, isMigrate, memListenerOk, ioListenerOk, mmaps, addOk);
    if memListenerOk && (!ioSpace || ioListenerOk) {
      var st := RamStage(isMigrate, mmaps, addOk);
      assert RamAdds(r.events) == RamAdds(st.events);
      if !isMigrate && mmaps.None? {
        var one := [MapGuestRam];
        assert one[1..] == [];
        assert RamAdds(st.events) == RamAdds(one) == [];
      }
      if !isMigrate && mmaps.Some? && !AllOk(addOk) {
        var k := FirstFailure(addOk);
        var j := |RamAdds(st.events)| - 1;
        assert FailsFirstAt(addOk, k) && FailsFirstAt(addOk, j);
        assert j == k;
      }
    }
  }

  // --------------------------------------------------------- register_seccomp

  datatype SeccompOutcome<R> = SeccompOutcome(result: Result<(), InitError>, pushed: seq<R>)

  /**
   * `register_seccomp`: push the machine's syscall whitelist into a trapping
   * filter, followed by the balloon device's rules when the balloon is
   * enabled, then install the filter (`realizeOk` is its outcome).
   */
  function RegisterSeccomp<R>(whitelist: seq<R>, balloonRules: seq<R>, balloonEnable: bool,
                              realizeOk: bool): (r: SeccompOutcome<R>)
    ensures r.result.Ok? <==> realizeOk
    ensures r.result.Err? ==> r.result.error == SeccompFailed
    // the whitelist comes first, unchanged and complete
    ensures |whitelist| <= |r.pushed| && r.pushed[..|whitelist|] == whitelist
    // what follows it is exactly the balloon rules, and only when enabled
    ensures r.pushed[|whitelist|..] == if balloonEnable then balloonRules else []
  {
    var rules := if balloonEnable then whitelist + balloonRules else whitelist;
    SeccompOutcome(if realizeOk then Ok(()) else Err(SeccompFailed), rules)
  }

  /** Enabling the balloon only adds rules: the filter then holds every rule
      it holds without the balloon, plus exactly the balloon's rules. */
  lemma BalloonOnlyAddsRules<R>(whitelist: seq<R>, balloonRules: seq<R>, realizeOk: bool)
    ensures multiset(RegisterSeccomp(whitelist, balloonRules, true, realizeOk).pushed)
            == multiset(RegisterSeccomp(whitelist, balloonRules, false, realizeOk).pushed)
               + multiset(balloonRules)
  {
    var on := RegisterSeccomp(whitelist, balloonRules, true, realizeOk).pushed;
    assert on == on[..|whitelist|] + on[|whitelist|..];
  }
}

=== FILE: pulseaudio.dfy ===
/**
 * The PulseAudio back end of the scream audio device
 * (devices/src/misc/scream/pulseaudio.rs): decoding the stream format the
 * guest writes into shared memory, choosing the channel map, and the guards
 * around playback and capture.
 *
 * The PulseAudio library is not modelled: whether a channel map is valid,
 * the map `init_extend` builds, whether a map suits a sample spec, and
 * whether a stream can be opened, read or written are parameters.
 */
module PulseAudio {
  import opened Wrappers
  import opened Integers

  const AUDIO_SAMPLE_RATE_44KHZ: nat := 44100
  const AUDIO_SAMPLE_RATE_48KHZ: nat := 48000
  const WINDOWS_SAMPLE_BASE_RATE: nat := 128
  const TAGET_LATENCY_MS: nat := 50

  /** The speaker positions this back end uses. */
  datatype Position =
    | Mono
    | FrontLeft | FrontRight | FrontCenter | Lfe | RearLeft | RearRight
    | FrontLeftOfCenter | FrontRightOfCenter | RearCenter | SideLeft | SideRight

  type ChannelMap = seq<Position>

  const WINDOWS_POSITION_CNT: nat := 11

  /** Bit `k` of a Windows channel mask is speaker `PULSEAUDIO_POSITION[k]`. */
  const PULSEAUDIO_POSITION: seq<Position> :=
    [FrontLeft, FrontRight, FrontCenter, Lfe, RearLeft, RearRight,
     FrontLeftOfCenter, FrontRightOfCenter, RearCenter, SideLeft, SideRight]

  const MONO_MAP: ChannelMap := [Mono]
  const STEREO_MAP: ChannelMap := [FrontLeft, FrontRight]

  datatype SampleFormat = S16le | S24le | S32le

  datatype SampleSpec = SampleSpec(format: SampleFormat, rate: nat, channels: u8)

  /** The format header the guest publishes with every period of audio. */
  datatype StreamFmt = StreamFmt(rate: u8, size: u8, channels: u8, channelMask: u32)

  const DEFAULT_FMT: StreamFmt := StreamFmt(0, 0, 0, 0)

  // ------------------------------------------------------------ sample rate

  /** The base rate a packed rate byte selects: bit 7 set means 44.1 kHz. */
  function BaseRate(rate: u8): (hz: nat)
    ensures hz == AUDIO_SAMPLE_RATE_44KHZ || hz == AUDIO_SAMPLE_RATE_48KHZ
    ensures hz == AUDIO_SAMPLE_RATE_44KHZ <==> rate >= WINDOWS_SAMPLE_BASE_RATE
  {
    if rate >= WINDOWS_SAMPLE_BASE_RATE then AUDIO_SAMPLE_RATE_44KHZ else AUDIO_SAMPLE_RATE_48KHZ
  }

  /** The sample rate in Hz a packed rate byte stands for: the base rate
      times the multiplier in the low seven bits. */
  function DecodeRate(rate: u8): (hz: nat)
    ensures hz % BaseRate(rate) == 0 && hz / BaseRate(rate) == rate % WINDOWS_SAMPLE_BASE_RATE
    ensures hz == 0 <==> rate % WINDOWS_SAMPLE_BASE_RATE == 0
    // the product always fits the u32 the source computes it in
    ensures hz <= 127 * AUDIO_SAMPLE_RATE_48KHZ < U32_LIMIT
  {
    BaseRate(rate) * (rate % WINDOWS_SAMPLE_BASE_RATE)
  }

  /** The packed byte for a base rate (44.1 kHz or not) and a multiplier. */
  function EncodeRate(base44: bool, multiplier: nat): (rate: u8)
    requires multiplier < WINDOWS_SAMPLE_BASE_RATE
    ensures (rate >= WINDOWS_SAMPLE_BASE_RATE) == base44
    ensures rate % WINDOWS_SAMPLE_BASE_RATE == multiplier
  {
    (if base44 then WINDOWS_SAMPLE_BASE_RATE else 0) + multiplier
  }

  /** Decoding an encoded rate gives the base rate times the multiplier, and
      every byte is the encoding of its own base-rate bit and multiplier. */
  lemma RateRoundTrip(base44: bool, multiplier: nat, rate: u8)
    requires multiplier < WINDOWS_SAMPLE_BASE_RATE
    ensures DecodeRate(EncodeRate(base44, multiplier))
            == (if base44 then AUDIO_SAMPLE_RATE_44KHZ else AUDIO_SAMPLE_RATE_48KHZ) * multiplier
    ensures EncodeRate(rate >= WINDOWS_SAMPLE_BASE_RATE, rate % WINDOWS_SAMPLE_BASE_RATE) == rate
  {
  }

  /** No two bytes that name a playable rate name the same rate: the 44.1 kHz
      and 48 kHz families do not meet below 128 times either base. */
  lemma DecodeRateInjective(a: u8, b: u8)
    requires DecodeRate(a) == DecodeRate(b) > 0
    ensures a == b
  {
    var x, y := a % WINDOWS_SAMPLE_BASE_RATE, b % WINDOWS_SAMPLE_BASE_RATE;
    if (a >= WINDOWS_SAMPLE_BASE_RATE) != (b >= WINDOWS_SAMPLE_BASE_RATE) {
      if a >= WINDOWS_SAMPLE_BASE_RATE {
        FamiliesDisjoint(x, y);
      } else {
        FamiliesDisjoint(y, x);
      }
    }
  }

  lemma FamiliesDisjoint(x: nat, y: nat)
    requires 0 < x < WINDOWS_SAMPLE_BASE_RATE && 0 < y < WINDOWS_SAMPLE_BASE_RATE
    ensures AUDIO_SAMPLE_RATE_44KHZ * x != AUDIO_SAMPLE_RATE_48KHZ * y
  {
  }

  // ------------------------------------------------------------ sample size

  /** The sample format for a sample size in bits; None for a size the back
      end cannot play. */
  function SampleFormatOf(size: u8): (f: Option<SampleFormat>)
    ensures f.Some? <==> size in {16, 24, 32}
    ensures f.Some? ==> FormatBits(f.value) == size
  {
    match size
    case 16 => Some(S16le)
    case 24 => Some(S24le)
    case 32 => Some(S32le)
    case _ => None
  }

  /** The sample size in bits of a format. */
  function FormatBits(f: SampleFormat): (bits: u8)
  {
    match f
    case S16le => 16
    case S24le => 24
    case S32le => 32
  }

  lemma FormatRoundTrip(f: SampleFormat)
    ensures SampleFormatOf(FormatBits(f)) == Some(f)
  {
  }

  // ------------------------------------------------------------ channel mask

  /** Whether speaker bit `j` is set in a Windows channel mask, that is
      whether `(mask >> j) & 1 == 1`. */
  predicate Bit(mask: nat, j: nat)
    decreases j
  {
    if j == 0 then mask % 2 == 1 else Bit(mask / 2, j - 1)
  }

  /** The 32 speaker bits of a channel mask, lowest first. */
  function MaskBits(mask: u32): (bits: seq<bool>)
    ensures |bits| == 32
  {
    seq(32, j requires 0 <= j < 32 => Bit(mask, j))
  }

  lemma MaskBitsSpec(mask: u32)
    ensures forall j | 0 <= j < 32 :: MaskBits(mask)[j] == Bit(mask, j)
  {
  }

  /** The set bits among `bits[j..]`, as bit numbers in ascending order. */
  function SetBitsFrom(bits: seq<bool>, j: nat): seq<nat>
    requires j <= |bits|
    decreases |bits| - j
  {
    if j == |bits| then []
    else (if bits[j] then [j] else []) + SetBitsFrom(bits, j + 1)
  }

  /** The speakers a channel mask names, as bit numbers in ascending order. */
  function SetBits(mask: u32): seq<nat>
  {
    SetBitsFrom(MaskBits(mask), 0)
  }

  lemma {:induction false} SetBitsFromSpec(bits: seq<bool>, j: nat)
    requires j <= |bits|
    ensures forall i | 0 <= i < |SetBitsFrom(bits, j)| ::
              j <= SetBitsFrom(bits, j)[i] < |bits| && bits[SetBitsFrom(bits, j)[i]]
    ensures forall i, k | 0 <= i < k < |SetBitsFrom(bits, j)| ::
              SetBitsFrom(bits, j)[i] < SetBitsFrom(bits, j)[k]
    ensures forall b | j <= b < |bits| && bits[b] :: b in SetBitsFrom(bits, j)
    decreases |bits| - j
  {
    if j < |bits| {
      SetBitsFromSpec(bits, j + 1);
    }
  }

  /** `SetBits` lists exactly the set bits of the mask, each once, in
      ascending order. */
  lemma SetBitsSpec(mask: u32)
    ensures forall i | 0 <= i < |SetBits(mask)| :: SetBits(mask)[i] < 32 && Bit(mask, SetBits(mask)[i])
    ensures forall b | 0 <= b < 32 && Bit(mask, b) :: b in SetBits(mask)
    ensures forall i, k | 0 <= i < k < |SetBits(mask)| :: SetBits(mask)[i] < SetBits(mask)[k]
  {
    SetBitsFromSpec(MaskBits(mask), 0);
    MaskBitsSpec(mask);
  }

  /** The key channel `i` ends up with, in terms of the set bits `s` of the
      mask: the `i`-th set bit while set bits remain, then the last set bit
      again, and -1 (no bit found) for an empty mask. */
  function KeyFor(s: seq<nat>, i: nat): int
  {
    if i < |s| then s[i] else if |s| == 0 then -1 else s[|s| - 1]
  }

  /** The key held before channel `i` is processed. */
  function KeyBefore(s: seq<nat>, i: nat): int
  {
    if i == 0 then -1 else KeyFor(s, i - 1)
  }

  /** The speaker a key stands for; a key outside the table, including the
      -1 of a mask with no bits, falls back to the front centre. */
  function KeyPosition(key: int): (p: Position)
    ensures p != Mono
    ensures 0 <= key < WINDOWS_POSITION_CNT ==> p == PULSEAUDIO_POSITION[key]
    ensures !(0 <= key < WINDOWS_POSITION_CNT) ==> p == FrontCenter
  {
    if 0 <= key < WINDOWS_POSITION_CNT then PULSEAUDIO_POSITION[key] else FrontCenter
  }

  /** The channel map `transfer_channel_map` writes for `channels` channels. */
  function ChannelPositions(mask: u32, channels: u8): (m: ChannelMap)
    ensures |m| == channels
  {
    seq(channels, i requires 0 <= i < channels => KeyPosition(KeyFor(SetBits(mask), i)))
  }

  /**
   * `transfer_channel_map`: for each channel, find the next set bit of the
   * mask strictly above the previous key and map it to a speaker position.
   * Channel `i` gets the speaker of the `i`-th set bit while set bits remain;
   * after that every channel repeats the speaker of the last set bit, or is
   * the front centre when no bit is set at all.
   */
  method TransferChannelMap(mask: u32, channels: u8) returns (m: ChannelMap)
    ensures |m| == channels
    ensures forall i | 0 <= i < channels :: m[i] == KeyPosition(KeyFor(SetBits(mask), i))
    ensures m == ChannelPositions(mask, channels)
  {
    ghost var s := SetBits(mask);
    m := [];
    var key: int := -1;
    var i := 0;
    while i < channels
      invariant 0 <= i <= channels
      invariant |m| == i
      invariant forall t | 0 <= t < i :: m[t] == KeyPosition(KeyFor(s, t))
      invariant key == KeyBefore(s, i)
    {
      KeyBeforeRange(mask, i);
      var next := NextKey(mask, key);
      NextKeyIsNextSetBit(mask, i, next);
      key := next;
      m := m + [KeyPosition(key)];
      i := i + 1;
    }
  }

  /** The inner loop of `transfer_channel_map`: the lowest set bit above
      `key`, or `key` itself when there is none. */
  method NextKey(mask: u32, key: int) returns (next: int)
    requires -1 <= key < 32
    ensures next == key || (key < next < 32 && Bit(mask, next))
    ensures forall b | key < b < (if next == key then 32 else next) :: !Bit(mask, b)
  {
    next := key;
    var j := key + 1;
    while j < 32
      invariant key + 1 <= j <= 32
      invariant next == key
      invariant forall b | key < b < j :: !Bit(mask, b)
    {
      if Bit(mask, j) {
        next := j;
        break;
      }
      j := j + 1;
    }
  }

  /** `s` lists the set entries of `bits`, each once, in ascending order. */
  ghost predicate ListsSetBits(s: seq<nat>, bits: seq<bool>)
  {
    && (forall i | 0 <= i < |s| :: s[i] < |bits| && bits[s[i]])
    && (forall b | 0 <= b < |bits| && bits[b] :: b in s)
    && (forall i, k | 0 <= i < k < |s| :: s[i] < s[k])
  }

  /** The scan step over any bit list: the lowest set bit above the key held
      before channel `i` (or that key, when there is none) is channel `i`'s key. */
  lemma StepKey(s: seq<nat>, bits: seq<bool>, i: nat, next: int)
    requires ListsSetBits(s, bits)
    requires var key := KeyBefore(s, i);
             && (next == key || (key < next < |bits| && bits[next]))
             && (forall b | key < b < (if next == key then |bits| else next) :: !bits[b])
    ensures next == KeyFor(s, i)
  {
    var key := KeyBefore(s, i);
    if i < |s| {
      assert key < s[i] by {
        if i > 0 {
          assert key == s[i - 1];
        }
      }
      assert bits[s[i]];
      assert next != key;
      assert next <= s[i];
      var p :| 0 <= p < |s| && s[p] == next;
      assert p <= i;
      assert i > 0 ==> s[i - 1] < s[p];
    } else {
      assert key == if |s| == 0 then -1 else s[|s| - 1];
      assert forall p | 0 <= p < |s| :: s[p] <= key;
    }
  }

  /** The same step for the mask, as `NextKey` reports it. */
  lemma NextKeyIsNextSetBit(mask: u32, i: nat, next: int)
    requires var key := KeyBefore(SetBits(mask), i);
             && (next == key || (key < next < 32 && Bit(mask, next)))
             && (forall b | key < b < (if next == key then 32 else next) :: !Bit(mask, b))
    ensures next == KeyFor(SetBits(mask), i)
  {
    var bits := MaskBits(mask);
    MaskBitsSpec(mask);
    SetBitsFromSpec(bits, 0);
    StepKey(SetBits(mask), bits, i, next);
  }

  /** Every key the scan holds is -1 or a bit number. */
  lemma KeyBeforeRange(mask: u32, i: nat)
    ensures -1 <= KeyBefore(SetBits(mask), i) < 32
  {
    SetBitsSpec(mask);
  }

  /** While set bits remain the keys strictly increase, so no speaker bit is
      used twice. */
  lemma KeysIncrease(mask: u32, i: nat, k: nat)
    requires i < k < |SetBits(mask)|
    ensures KeyFor(SetBits(mask), i) < KeyFor(SetBits(mask), k)
  {
    SetBitsSpec(mask);
  }

  /** A key found by the scan is always a set bit of the mask. */
  lemma KeysAreSetBits(mask: u32, i: nat)
    requires |SetBits(mask)| > 0
    ensures 0 <= KeyFor(SetBits(mask), i) < 32 && Bit(mask, KeyFor(SetBits(mask), i))
  {
    SetBitsSpec(mask);
  }

  lemma {:induction false} ZeroHasNoBits(j: nat)
    ensures !Bit(0, j)
  {
    if j > 0 {
      ZeroHasNoBits(j - 1);
    }
  }

  lemma {:induction false} SetBitsFromNone(bits: seq<bool>, j: nat)
    requires j <= |bits|
    requires forall b | j <= b < |bits| :: !bits[b]
    ensures SetBitsFrom(bits, j) == []
    decreases |bits| - j
  {
    if j < |bits| {
      SetBitsFromNone(bits, j + 1);
    }
  }

  /** A mask whose set bits are exactly the lowest `n` lists 0, 1, ..., n-1. */
  lemma {:induction false} LowBitsListed(bits: seq<bool>, n: nat, j: nat)
    requires j <= n <= |bits|
    requires forall b | 0 <= b < |bits| :: bits[b] <==> b < n
    ensures SetBitsFrom(bits, j) == seq(n - j, i requires 0 <= i < n - j => j + i)
    decreases |bits| - j
  {
    if j == n {
      SetBitsFromNone(bits, j);
    } else {
      LowBitsListed(bits, n, j + 1);
      assert SetBitsFrom(bits, j) == [j] + SetBitsFrom(bits, j + 1);
    }
  }

  lemma LowSixBits()
    ensures forall b | 0 <= b < 32 :: MaskBits(0x3F)[b] <==> b < 6
  {
    MaskBitsSpec(0x3F);
    assert Bit(0x3F, 0) && Bit(0x3F, 1) && Bit(0x3F, 2) && Bit(0x3F, 3) && Bit(0x3F, 4) && Bit(0x3F, 5);
    forall j | 6 <= j < 32
      ensures !Bit(0x3F, j)
    {
      ZeroHasNoBits(j - 6);
      // each unfolding drops the lowest bit: 63, 31, 15, 7, 3, 1, 0
      assert Bit(63, j) == Bit(31, j - 1);
      assert Bit(31, j - 1) == Bit(15, j - 2);
      assert Bit(15, j - 2) == Bit(7, j - 3);
      assert Bit(7, j - 3) == Bit(3, j - 4);
      assert Bit(3, j - 4) == Bit(1, j - 5);
      assert Bit(1, j - 5) == Bit(0, j - 6);
    }
  }

  /** A 5.1 mask (front left, front right, front centre, LFE, rear left,
      rear right: bits 0 to 5) over six channels lists those speakers in bit
      order. */
  lemma FivePointOneLayout()
    ensures ChannelPositions(0x3F, 6) == [FrontLeft, FrontRight, FrontCenter, Lfe, RearLeft, RearRight]
  {
    LowSixBits();
    LowBitsListed(MaskBits(0x3F), 6, 0);
    var m := ChannelPositions(0x3F, 6);
    assert forall i | 0 <= i < 6 :: m[i] == PULSEAUDIO_POSITION[i];
  }

  // ------------------------------------------------------------ the stream

  /** The PulseAudio library calls the back end makes, as their outcomes. */
  datatype Library = Library(
    isValid: ChannelMap -> bool,
    initExtend: u8 -> ChannelMap,
    compatible: (ChannelMap, SampleSpec) -> bool,
    canOpen: (SampleSpec, ChannelMap) -> bool)

  /** An open PulseAudio stream, with the spec and map it was opened with. */
  datatype Stream = Stream(spec: SampleSpec, channelMap: ChannelMap)

  datatype PulseStreamData = PulseStreamData(
    stream: Option<Stream>,
    spec: SampleSpec,
    channelMap: ChannelMap,
    fmt: StreamFmt,
    latency: nat)

  /** `init`: a 44.1 kHz, 16-bit stereo stream with a 50 ms target latency;
      None when the stream cannot be opened, where the source panics. */
  function Init(lib: Library): (r: Option<PulseStreamData>)
    ensures r.Some? <==> lib.canOpen(SampleSpec(S16le, AUDIO_SAMPLE_RATE_44KHZ, 2), STEREO_MAP)
    ensures r.Some? ==>
              && r.value.spec == SampleSpec(S16le, AUDIO_SAMPLE_RATE_44KHZ, 2)
              && r.value.channelMap == STEREO_MAP
              && |r.value.channelMap| == r.value.spec.channels
              && r.value.stream == Some(Stream(r.value.spec, r.value.channelMap))
              && r.value.fmt == DEFAULT_FMT
              && r.value.latency == TAGET_LATENCY_MS
  {
    var spec := SampleSpec(S16le, AUDIO_SAMPLE_RATE_44KHZ, 2);
    if lib.canOpen(spec, STEREO_MAP) then
      Some(PulseStreamData(Some(Stream(spec, STEREO_MAP)), spec, STEREO_MAP, DEFAULT_FMT, TAGET_LATENCY_MS))
    else None
  }

  /** The channel map a format asks for before validation. */
  function RequestedMap(fmt: StreamFmt): (m: ChannelMap)
    ensures |m| == fmt.channels
    ensures fmt.channels == 1 ==> m == MONO_MAP
    ensures fmt.channels == 2 ==> m == STEREO_MAP
    ensures fmt.channels !in {1, 2} ==> m == ChannelPositions(fmt.channelMask, fmt.channels)
  {
    if fmt.channels == 1 then MONO_MAP
    else if fmt.channels == 2 then STEREO_MAP
    else ChannelPositions(fmt.channelMask, fmt.channels)
  }

  /**
   * `check_fmt_update`: when the guest's format differs from the stored one,
   * store it, decode rate, size and channel map, fall back to the library's
   * extended map when the map is invalid, disable the stream (rate 0) when
   * the size is unsupported or the map does not suit the spec, and reopen
   * the stream when the rate is nonzero.
   */
  function CheckFmtUpdate(lib: Library, s: PulseStreamData, fmt: StreamFmt): (t: PulseStreamData)
    // an unchanged format is a no-op
    ensures s.fmt == fmt ==> t == s
    ensures t.fmt == fmt && t.latency == s.latency
    ensures s.fmt != fmt ==>
              && t.spec.channels == fmt.channels
              && t.channelMap == (if lib.isValid(RequestedMap(fmt)) then RequestedMap(fmt)
                                  else lib.initExtend(fmt.channels))
    // an unsupported sample size silences the stream and keeps the old format
    ensures s.fmt != fmt && SampleFormatOf(fmt.size).None? ==>
              t.spec.rate == 0 && t.spec.format == s.spec.format
    // a live rate is the decoded one, with a matching format and a suitable map
    ensures s.fmt != fmt && t.spec.rate > 0 ==>
              && t.spec.rate == DecodeRate(fmt.rate)
              && SampleFormatOf(fmt.size) == Some(t.spec.format)
              && lib.compatible(t.channelMap, t.spec)
    ensures s.fmt != fmt && SampleFormatOf(fmt.size).Some? ==> t.spec.format == SampleFormatOf(fmt.size).value
    ensures s.fmt != fmt && SampleFormatOf(fmt.size).Some? && lib.compatible(t.channelMap, t.spec.(rate := DecodeRate(fmt.rate))) ==>
              t.spec.rate == DecodeRate(fmt.rate)
    // a new stream is opened only for a nonzero rate; otherwise the old one stays
    ensures t.spec.rate == 0 ==> t.stream == s.stream
    ensures s.fmt != fmt && t.spec.rate > 0 ==>
              t.stream == if lib.canOpen(t.spec, t.channelMap) then Some(Stream(t.spec, t.channelMap)) else None
  {
    if s.fmt == fmt then s
    else
      var format := SampleFormatOf(fmt.size);
      var decoded := SampleSpec(if format.Some? then format.value else s.spec.format,
                                if format.Some? then DecodeRate(fmt.rate) else 0,
                                fmt.channels);
      var requested := RequestedMap(fmt);
      var channelMap := if lib.isValid(requested) then requested else lib.initExtend(fmt.channels);
      var spec := if lib.compatible(channelMap, decoded) then decoded else decoded.(rate := 0);
      var stream :=
        if spec.rate > 0 then
          (if lib.canOpen(spec, channelMap) then Some(Stream(spec, channelMap)) else None)
        else s.stream;
      PulseStreamData(stream, spec, channelMap, fmt, s.latency)
  }

  /** Reconfiguring twice for the same format is reconfiguring once. */
  lemma CheckFmtUpdateIdempotent(lib: Library, s: PulseStreamData, fmt: StreamFmt)
    ensures CheckFmtUpdate(lib, CheckFmtUpdate(lib, s, fmt), fmt) == CheckFmtUpdate(lib, s, fmt)
  {
  }

  datatype SendOutcome = SendOutcome(state: PulseStreamData, written: bool)

  /** `send`: reconfigure, then write the period to the stream unless the
      rate is zero or no stream is open. A write error is only logged. */
  function Send(lib: Library, s: PulseStreamData, fmt: StreamFmt): (r: SendOutcome)
    // the state is the reconfigured one; writing changes nothing in it
    ensures r.state == CheckFmtUpdate(lib, s, fmt)
    ensures r.state.fmt == fmt
    ensures r.written <==> r.state.spec.rate > 0 && r.state.stream.Some?
    ensures r.written ==> r.state.stream.value.spec == r.state.spec || s.fmt == fmt
    ensures s.fmt == fmt ==> r.state == s
  {
    var t := CheckFmtUpdate(lib, s, fmt);
    SendOutcome(t, t.spec.rate > 0 && t.stream.Some?)
  }

  datatype ReceiveOutcome = ReceiveOutcome(state: PulseStreamData, ok: bool)

  /** `receive`: reconfigure, then read a period from the stream; false when
      no stream is open, and on a read error (`readOk` false), which also
      zeroes the rate. The rate is not consulted before reading. */
  function Receive(lib: Library, s: PulseStreamData, fmt: StreamFmt, readOk: bool): (r: ReceiveOutcome)
    ensures r.state.fmt == fmt
    ensures r.ok <==> CheckFmtUpdate(lib, s, fmt).stream.Some? && readOk
    ensures r.state.stream == CheckFmtUpdate(lib, s, fmt).stream
    ensures CheckFmtUpdate(lib, s, fmt).stream.Some? && !readOk ==> r.state.spec.rate == 0
    // a read error changes nothing but the rate
    ensures CheckFmtUpdate(lib, s, fmt).stream.Some? && !readOk ==>
              r.state == CheckFmtUpdate(lib, s, fmt).(spec := CheckFmtUpdate(lib, s, fmt).spec.(rate := 0))
    ensures r.ok || CheckFmtUpdate(lib, s, fmt).stream.None? ==> r.state == CheckFmtUpdate(lib, s, fmt)
  {
    var t := CheckFmtUpdate(lib, s, fmt);
    if t.stream.None? then ReceiveOutcome(t, false)
    else if !readOk then ReceiveOutcome(t.(spec := t.spec.(rate := 0)), false)
    else ReceiveOutcome(t, true)
  }

  /** A format with an unsupported sample size stops playback: no send with
      that format writes anything, however often it is repeated. */
  lemma {:induction false} UnsupportedSizeSilences(lib: Library, s: PulseStreamData, fmt: StreamFmt, n: nat)
    requires s.fmt != fmt
    requires SampleFormatOf(fmt.size).None?
    ensures !SendRepeated(lib, CheckFmtUpdate(lib, s, fmt), fmt, n)
    decreases n
  {
    if n > 0 {
      UnsupportedSizeSilences(lib, s, fmt, n - 1);
    }
  }

  /** Whether any of `n` sends of `fmt` from state `s` writes. */
  function SendRepeated(lib: Library, s: PulseStreamData, fmt: StreamFmt, n: nat): bool
    decreases n
  {
    if n == 0 then false
    else Send(lib, s, fmt).written || SendRepeated(lib, Send(lib, s, fmt).state, fmt, n - 1)
  }

  /** A read error stops playback until the guest switches format: a send
      with the same format then writes nothing. */
  lemma ReadErrorStopsPlayback(lib: Library, s: PulseStreamData, fmt: StreamFmt)
    requires CheckFmtUpdate(lib, s, fmt).stream.Some?
    ensures !Receive(lib, s, fmt, false).ok
    ensures !Send(lib, Receive(lib, s, fmt, false).state, fmt).written
  {
  }

  /** Capture does not look at the rate: after a switch to an unsupported
      sample size, a stream opened for the previous format is still read. */
  lemma CaptureIgnoresRate(lib: Library, s: PulseStreamData, fmt: StreamFmt)
    requires s.stream.Some? && s.fmt != fmt
    requires SampleFormatOf(fmt.size).None?
    ensures Receive(lib, s, fmt, true).ok
    ensures Receive(lib, s, fmt, true).state.spec.rate == 0
    ensures !Send(lib, s, fmt).written
  {
  }
}

=== FILE: scsi.dfy ===
/**
 * Command-line configuration of the virtio-scsi controller and of the SCSI
 * devices attached to it (machine_manager/src/config/scsi.rs).
 *
 * The command-line tokenizer is not modelled: a parsed option string is a map
 * from key to `Arg`, holding the value's text and, when the text is a decimal
 * integer, its value. The typed getters fail exactly when a present value does
 * not convert to the requested unsigned width. The outcome of the shared PCI
 * address check is a parameter.
 */
module ScsiConfig {
  import opened Wrappers
  import opened Integers

  /** Limits defined by the surrounding configuration module. */
  const MAX_STRING_LENGTH: nat := 255
  const MAX_VIRTIO_QUEUE: nat := 32

  /** Addressing limits of section 5.6.4 of the Virtio 1.1 specification. */
  const VIRTIO_SCSI_MAX_TARGET: nat := 255
  const VIRTIO_SCSI_MAX_LUN: nat := 16383
  /** Only 8-bit peripheral device LUN addressing is supported. */
  const SUPPORT_SCSI_MAX_LUN: nat := 255

  /** One `key=value` of an option string: the text, and its value when the
      text is a decimal integer. */
  datatype Arg = Arg(text: string, number: Option<nat>)

  type Args = map<string, Arg>

  datatype ConfigError =
    | FieldIsMissing(field: string, device: string)
    | StringLengthTooLong(what: string, max: nat)
    | IllegalValue(what: string, min: nat, minInclusive: bool, max: nat, maxInclusive: bool)
    | ConvertValueFailed(key: string)
    | PciArgsInvalid

  /** A string argument; these never fail to convert. */
  function GetString(args: Args, key: string): (r: Option<string>)
    ensures r.Some? <==> key in args
    ensures r.Some? ==> r.value == args[key].text
  {
    if key in args then Some(args[key].text) else None
  }

  /** An unsigned argument of a width whose values are below `limit`: absent
      is `None`, a present value that is not an integer below the limit is a
      conversion error. */
  function GetUnsigned(args: Args, key: string, limit: nat): (r: Result<Option<nat>, ConfigError>)
    ensures key !in args ==> r == Ok(None)
    ensures key in args ==>
              (r.Ok? <==> args[key].number.Some? && args[key].number.value < limit)
    ensures r.Ok? && r.value.Some? ==> key in args && r.value == args[key].number && r.value.value < limit
    ensures r.Err? ==> r.error == ConvertValueFailed(key)
  {
    if key !in args then Ok(None)
    else match args[key].number
      case Some(n) => if n < limit then Ok(Some(n)) else Err(ConvertValueFailed(key))
      case None => Err(ConvertValueFailed(key))
  }

  // --------------------------------------------------------------- controller

  datatype ScsiCntlrConfig = ScsiCntlrConfig(id: string, iothread: Option<string>, queues: u32)

  const CNTLR_ID: string := "virtio-scsi-pci device id"
  const IOTHREAD_NAME: string := "iothread name"
  const CNTLR_QUEUES: string := "queues number of scsi controller"

  /** The default controller: no id yet, no iothread, one command queue. */
  function DefaultController(): (c: ScsiCntlrConfig)
    ensures c.id == [] && c.iothread.None?
    // the default queue count is the smallest one `check` accepts
    ensures c.queues == 1 && c.queues >= 1 && c.queues <= MAX_VIRTIO_QUEUE
  {
    ScsiCntlrConfig("", None, 1)
  }

  /** What `check` accepts: names no longer than the string limit and a queue
      count in 1..=MAX_VIRTIO_QUEUE. */
  ghost predicate ValidController(c: ScsiCntlrConfig)
  {
    && |c.id| <= MAX_STRING_LENGTH
    && (c.iothread.Some? ==> |c.iothread.value| <= MAX_STRING_LENGTH)
    && 1 <= c.queues <= MAX_VIRTIO_QUEUE
  }

  /** `ScsiCntlrConfig::check`: the id length, then the iothread name length,
      then the queue count. */
  function CheckController(c: ScsiCntlrConfig): (r: Result<(), ConfigError>)
    ensures r.Ok? <==> ValidController(c)
    ensures |c.id| > MAX_STRING_LENGTH ==> r == Err(StringLengthTooLong(CNTLR_ID, MAX_STRING_LENGTH))
    ensures |c.id| <= MAX_STRING_LENGTH && c.iothread.Some? && |c.iothread.value| > MAX_STRING_LENGTH ==>
              r == Err(StringLengthTooLong(IOTHREAD_NAME, MAX_STRING_LENGTH))
    ensures |c.id| <= MAX_STRING_LENGTH && (c.iothread.Some? ==> |c.iothread.value| <= MAX_STRING_LENGTH) &&
            !(1 <= c.queues <= MAX_VIRTIO_QUEUE) ==>
              r == Err(IllegalValue(CNTLR_QUEUES, 1, true, MAX_VIRTIO_QUEUE, true))
    ensures r.Err? && r.error.IllegalValue? ==>
              && |c.id| <= MAX_STRING_LENGTH
              && (c.iothread.Some? ==> |c.iothread.value| <= MAX_STRING_LENGTH)
              && r.error == IllegalValue(CNTLR_QUEUES, 1, true, MAX_VIRTIO_QUEUE, true)
  {
    if |c.id| > MAX_STRING_LENGTH then Err(StringLengthTooLong(CNTLR_ID, MAX_STRING_LENGTH))
    else if c.iothread.Some? && |c.iothread.value| > MAX_STRING_LENGTH then
      Err(StringLengthTooLong(IOTHREAD_NAME, MAX_STRING_LENGTH))
    else if c.queues < 1 || c.queues > MAX_VIRTIO_QUEUE then
      Err(IllegalValue(CNTLR_QUEUES, 1, true, MAX_VIRTIO_QUEUE, true))
    else Ok(())
  }

  /** The queue count `parse_scsi_controller` settles on before checking it:
      an explicit `num-queues`, else the automatic count, else the default. */
  function ChosenQueues(explicit: Option<nat>, queuesAuto: Option<u16>): nat
  {
    if explicit.Some? then explicit.value
    else if queuesAuto.Some? then queuesAuto.value
    else DefaultController().queues
  }

  /**
   * `parse_scsi_controller`: the PCI address check (`pciOk`), then the
   * required `id`, then `num-queues` as a u32 falling back to `queuesAuto`,
   * and finally `check` on the result.
   */
  function ParseScsiController(args: Args, pciOk: bool, queuesAuto: Option<u16>): (r: Result<ScsiCntlrConfig, ConfigError>)
    ensures !pciOk ==> r == Err(PciArgsInvalid)
    ensures pciOk && "id" !in args ==> r == Err(FieldIsMissing("id", "virtio scsi pci"))
    ensures pciOk && "id" in args && GetUnsigned(args, "num-queues", U32_LIMIT).Err? ==>
              r == Err(ConvertValueFailed("num-queues"))
    // a controller that fails `check` is refused with the check's own error
    ensures pciOk && "id" in args && GetUnsigned(args, "num-queues", U32_LIMIT).Ok? &&
            CheckController(ScsiCntlrConfig(args["id"].text, GetString(args, "iothread"),
              ChosenQueues(GetUnsigned(args, "num-queues", U32_LIMIT).value, queuesAuto))).Err? ==>
              r == Err(CheckController(ScsiCntlrConfig(args["id"].text, GetString(args, "iothread"),
                     ChosenQueues(GetUnsigned(args, "num-queues", U32_LIMIT).value, queuesAuto))).error)
    // every accepted controller passes `check`
    ensures r.Ok? ==> ValidController(r.value)
    ensures r.Ok? ==>
              && "id" in args && r.value.id == args["id"].text
              && r.value.iothread == GetString(args, "iothread")
              && r.value.queues == ChosenQueues(GetUnsigned(args, "num-queues", U32_LIMIT).value, queuesAuto)
    ensures r.Ok? <==>
              && pciOk && "id" in args
              && GetUnsigned(args, "num-queues", U32_LIMIT).Ok?
              && CheckController(ScsiCntlrConfig(args["id"].text, GetString(args, "iothread"),
                   ChosenQueues(GetUnsigned(args, "num-queues", U32_LIMIT).value, queuesAuto))).Ok?
  {
    if !pciOk then Err(PciArgsInvalid)
    else
      var cfg := DefaultController();
      var cfg := if "iothread" in args then cfg.(iothread := Some(args["iothread"].text)) else cfg;
      if "id" !in args then Err(FieldIsMissing("id", "virtio scsi pci"))
      else
        var cfg := cfg.(id := args["id"].text);
        match GetUnsigned(args, "num-queues", U32_LIMIT)
        case Err(e) => Err(e)
        case Ok(explicit) =>
          var cfg := if explicit.Some? then cfg.(queues := explicit.value)
                     else if queuesAuto.Some? then cfg.(queues := queuesAuto.value)
                     else cfg;
          match CheckController(cfg)
          case Err(e) => Err(e)
          case Ok(_) => Ok(cfg)
  }

  /** An explicit `num-queues` always wins over the automatic count. */
  lemma ExplicitQueuesOverrideAuto(args: Args, pciOk: bool, a: Option<u16>, b: Option<u16>)
    requires "num-queues" in args && args["num-queues"].number.Some?
    ensures ParseScsiController(args, pciOk, a) == ParseScsiController(args, pciOk, b)
  {
  }

  /** The option string of a controller: its id, its iothread if any, and its
      queue count as text `queuesText`. */
  function ControllerArgs(c: ScsiCntlrConfig, queuesText: string): Args
  {
    var args := map["id" := Arg(c.id, None), "num-queues" := Arg(queuesText, Some(c.queues))];
    if c.iothread.Some? then args["iothread" := Arg(c.iothread.value, None)] else args
  }

  /** Every controller `check` accepts is what its own option string parses
      to, whatever the automatic queue count. */
  lemma ControllerRoundTrip(c: ScsiCntlrConfig, queuesText: string, queuesAuto: Option<u16>)
    requires ValidController(c)
    ensures ParseScsiController(ControllerArgs(c, queuesText), true, queuesAuto) == Ok(c)
  {
    var args := ControllerArgs(c, queuesText);
    assert GetString(args, "iothread") == c.iothread;
  }

  // ------------------------------------------------------------------ device

  /** The part of a `-drive` definition a SCSI device takes over. */
  datatype DriveConfig = DriveConfig(pathOnHost: string, readOnly: bool, direct: bool, aio: Option<string>)

  datatype ScsiDevConfig = ScsiDevConfig(
    id: string,
    pathOnHost: string,
    serial: Option<string>,
    bus: string,
    readOnly: bool,
    direct: bool,
    aioType: Option<string>,
    channel: u8,
    target: u8,
    lun: u16)

  /** `ScsiDevConfig::default()`: every field empty, false, None or zero. */
  const DEFAULT_SCSI_DEV: ScsiDevConfig := ScsiDevConfig("", "", None, "", false, false, None, 0, 0, 0)

  const SCSI_DEVICE: string := "scsi device"
  const TARGET_WHAT: string := "scsi-id of scsi device"
  const LUN_WHAT: string := "lun of scsi device"
  const TARGET_OUT_OF_RANGE: ConfigError := IllegalValue(TARGET_WHAT, 0, true, VIRTIO_SCSI_MAX_TARGET, true)
  const LUN_OUT_OF_RANGE: ConfigError := IllegalValue(LUN_WHAT, 0, true, SUPPORT_SCSI_MAX_LUN, true)

  datatype DeviceParse = DeviceParse(result: Result<ScsiDevConfig, ConfigError>, drives: map<string, DriveConfig>)

  /** The address a device asks for: target (`scsi-id`) and lun, each 0
      when absent. */
  datatype Address = Address(target: u8, lun: u16)

  /** The value an address option asks for: its number when present, else 0. */
  ghost predicate Requested(args: Args, key: string, v: nat)
  {
    if key in args then args[key].number == Some(v) else v == 0
  }

  /**
   * The address part of `parse_scsi_device`: `scsi-id` as a u8 and then
   * checked against the largest target, `lun` as a u16 and then checked
   * against the largest supported lun.
   */
  function ParseAddress(args: Args): (r: Result<Address, ConfigError>)
    ensures r.Ok? <==>
              && GetUnsigned(args, "scsi-id", U8_LIMIT).Ok?
              && GetUnsigned(args, "lun", U16_LIMIT).Ok?
              && ("lun" in args ==> args["lun"].number.value <= SUPPORT_SCSI_MAX_LUN)
    ensures r.Ok? ==>
              && Requested(args, "scsi-id", r.value.target) && r.value.target <= VIRTIO_SCSI_MAX_TARGET
              && Requested(args, "lun", r.value.lun) && r.value.lun <= SUPPORT_SCSI_MAX_LUN
    // an out-of-range lun is the only range error: the target check cannot fire
    ensures r.Err? && r.error.IllegalValue? ==> r.error == LUN_OUT_OF_RANGE
    // the errors in the order they are checked: scsi-id conversion, lun
    // conversion, lun range
    ensures GetUnsigned(args, "scsi-id", U8_LIMIT).Err? ==> r == Err(ConvertValueFailed("scsi-id"))
    ensures GetUnsigned(args, "scsi-id", U8_LIMIT).Ok? && GetUnsigned(args, "lun", U16_LIMIT).Err? ==>
              r == Err(ConvertValueFailed("lun"))
    ensures GetUnsigned(args, "scsi-id", U8_LIMIT).Ok? && GetUnsigned(args, "lun", U16_LIMIT).Ok? &&
            "lun" in args && args["lun"].number.value > SUPPORT_SCSI_MAX_LUN ==>
              r == Err(LUN_OUT_OF_RANGE)
  {
    match GetUnsigned(args, "scsi-id", U8_LIMIT)
    case Err(e) => Err(e)
    case Ok(target) =>
      if target.Some? && target.value > VIRTIO_SCSI_MAX_TARGET then Err(TARGET_OUT_OF_RANGE)
      else
        match GetUnsigned(args, "lun", U16_LIMIT)
        case Err(e) => Err(e)
        case Ok(lun) =>
          if lun.Some? && lun.value > SUPPORT_SCSI_MAX_LUN then Err(LUN_OUT_OF_RANGE)
          else Ok(Address(if target.Some? then target.value else 0, if lun.Some? then lun.value else 0))
  }

  /** The host settings a device takes from drive `key`, or the defaults when
      the machine defines no such drive. */
  ghost predicate TakesDrive(drives: map<string, DriveConfig>, key: string, d: ScsiDevConfig)
  {
    if key in drives then
      && d.pathOnHost == drives[key].pathOnHost && d.readOnly == drives[key].readOnly
      && d.direct == drives[key].direct && d.aioType == drives[key].aio
    else
      && d.pathOnHost == DEFAULT_SCSI_DEV.pathOnHost && d.readOnly == DEFAULT_SCSI_DEV.readOnly
      && d.direct == DEFAULT_SCSI_DEV.direct && d.aioType == DEFAULT_SCSI_DEV.aioType
  }

  /** Take drive `key` out of the table and copy its host settings into `dev`. */
  function AttachDrive(drives: map<string, DriveConfig>, key: string, dev: ScsiDevConfig): (r: DeviceParse)
    ensures r.result.Ok?
    ensures key in drives ==> TakesDrive(drives, key, r.result.value)
    // with no such drive the device keeps the settings it had
    ensures key !in drives ==> r.result.value == dev
    // only the host settings are overwritten
    ensures r.result.value.(pathOnHost := dev.pathOnHost, readOnly := dev.readOnly,
                            direct := dev.direct, aioType := dev.aioType) == dev
    // the drive is consumed and nothing else in the table changes
    ensures r.drives == drives - {key}
  {
    if key in drives then
      var d := drives[key];
      DeviceParse(Ok(dev.(pathOnHost := d.pathOnHost, readOnly := d.readOnly,
                          direct := d.direct, aioType := d.aio)),
                  drives - {key})
    else DeviceParse(Ok(dev), drives)
  }

  /** The accepted device's identity and address fields. */
  ghost predicate DeviceMatches(args: Args, d: ScsiDevConfig)
    requires "id" in args && "bus" in args
  {
    && d.id == args["id"].text
    && d.bus == args["bus"].text
    && d.serial == GetString(args, "serial")
    && d.channel == 0
    && Requested(args, "scsi-id", d.target)
    && Requested(args, "lun", d.lun)
  }

  /**
   * `parse_scsi_device`: the required `drive`, `id` and `bus`, in that
   * order; then the address; then the named drive is taken out of the
   * machine's drive table and its host settings are copied.
   */
  function ParseScsiDevice(drives: map<string, DriveConfig>, args: Args): (r: DeviceParse)
    ensures "drive" !in args ==> r.result == Err(FieldIsMissing("drive", SCSI_DEVICE))
    ensures "drive" in args && "id" !in args ==> r.result == Err(FieldIsMissing("id", SCSI_DEVICE))
    ensures "drive" in args && "id" in args && "bus" !in args ==>
              r.result == Err(FieldIsMissing("bus", SCSI_DEVICE))
    // an address error is passed on unchanged
    ensures "drive" in args && "id" in args && "bus" in args && ParseAddress(args).Err? ==>
              r.result == Err(ParseAddress(args).error)
    // a failed parse leaves the drive table as it was
    ensures r.result.Err? ==> r.drives == drives
    ensures r.result.Ok? <==> "drive" in args && "id" in args && "bus" in args && ParseAddress(args).Ok?
    ensures r.result.Ok? ==>
              && "drive" in args && "id" in args && "bus" in args
              && DeviceMatches(args, r.result.value)
              && r.result.value.target <= VIRTIO_SCSI_MAX_TARGET
              && r.result.value.lun <= SUPPORT_SCSI_MAX_LUN
              && TakesDrive(drives, args["drive"].text, r.result.value)
              && r.drives == drives - {args["drive"].text}
    ensures r.result.Err? && r.result.error.IllegalValue? ==> r.result.error == LUN_OUT_OF_RANGE
  {
    if "drive" !in args then DeviceParse(Err(FieldIsMissing("drive", SCSI_DEVICE)), drives)
    else if "id" !in args then DeviceParse(Err(FieldIsMissing("id", SCSI_DEVICE)), drives)
    else if "bus" !in args then DeviceParse(Err(FieldIsMissing("bus", SCSI_DEVICE)), drives)
    else
      match ParseAddress(args)
      case Err(e) => DeviceParse(Err(e), drives)
      case Ok(a) =>
        var dev := DEFAULT_SCSI_DEV.(id := args["id"].text, bus := args["bus"].text,
                                     serial := GetString(args, "serial"),
                                     target := a.target, lun := a.lun);
        AttachDrive(drives, args["drive"].text, dev)
  }

  /** A scsi-id of 256 or more is a conversion failure, never the range error
      the target check would report. */
  lemma WideTargetIsConversionError(drives: map<string, DriveConfig>, args: Args)
    requires "drive" in args && "id" in args && "bus" in args
    requires "scsi-id" in args && args["scsi-id"].number.Some? && args["scsi-id"].number.value > VIRTIO_SCSI_MAX_TARGET
    ensures ParseScsiDevice(drives, args).result == Err(ConvertValueFailed("scsi-id"))
  {
  }

  /** The option string of a device on drive `drive`, with the target and lun
      written as the texts `targetText` and `lunText`. */
  function DeviceArgs(d: ScsiDevConfig, drive: string, targetText: string, lunText: string): Args
  {
    var args := map["drive" := Arg(drive, None), "id" := Arg(d.id, None), "bus" := Arg(d.bus, None),
                    "scsi-id" := Arg(targetText, Some(d.target)), "lun" := Arg(lunText, Some(d.lun))];
    if d.serial.Some? then args["serial" := Arg(d.serial.value, None)] else args
  }

  /** A device whose lun is addressable parses back from its own option
      string, taking its host settings from the drive it names, which leaves
      the table; on channel 0 only, as the parser never sets a channel. */
  lemma DeviceRoundTrip(d: ScsiDevConfig, drive: string,
                        drives: map<string, DriveConfig>, targetText: string, lunText: string)
    requires d.lun <= SUPPORT_SCSI_MAX_LUN && d.channel == 0
    requires drive in drives
    requires d.pathOnHost == drives[drive].pathOnHost && d.readOnly == drives[drive].readOnly
    requires d.direct == drives[drive].direct && d.aioType == drives[drive].aio
    ensures ParseScsiDevice(drives, DeviceArgs(d, drive, targetText, lunText)) == DeviceParse(Ok(d), drives - {drive})
  {
    var args := DeviceArgs(d, drive, targetText, lunText);
    assert GetString(args, "serial") == d.serial;
  }
}

=== FILE: sequential.dfy ===
/**
 * Ascending-order, stop-on-first-failure passes.  Every fallible loop of the
 * machine layer (per-vCPU lifecycle operations, per-vCPU register set-up,
 * per-mapping RAM insertion) walks its items in index order and returns at
 * the first error; the host side of each step is given as one boolean
 * outcome per index.
 */
module Sequential {

  /** `k` is the first failing index of `ok`: everything before it succeeded. */
  ghost predicate FailsFirstAt(ok: seq<bool>, k: int)
  {
    0 <= k < |ok| && !ok[k] && forall i | 0 <= i < k :: ok[i]
  }

  ghost predicate AllOk(ok: seq<bool>)
  {
    forall i | 0 <= i < |ok| :: ok[i]
  }

  /** The index at which an in-order pass over `ok` stops: the first failing
      index, or `|ok|` when every step succeeds. */
  function FirstFailure(ok: seq<bool>): (k: nat)
    ensures k <= |ok|
    ensures k < |ok| <==> !AllOk(ok)
    ensures k < |ok| ==> FailsFirstAt(ok, k)
    ensures k == |ok| ==> AllOk(ok)
    decreases |ok|
  {
    if |ok| == 0 || !ok[0] then 0 else 1 + FirstFailure(ok[1..])
  }
}

=== FILE: wrappers.dfy ===
/** Failure-compatible wrappers shared by every module of the model. */
module Wrappers {

  /** An optional value: the model of Rust's `Option`. */
  datatype Option<+T> = None | Some(value: T)

  /** A success value or an error: the model of Rust's `Result`. */
  datatype Result<+T, +E> = Ok(value: T) | Err(error: E) {

    predicate IsFailure() {
      Err?
    }

    function PropagateFailure<U>(): Result<U, E>
      requires Err?
    {
      Err(error)
    }

    function Extract(): T
      requires Ok?
    {
      value
    }
  }
}
